=== FILE: README.md ===
# tebako-runtime core, modelled in Dafny

tebako-runtime runs inside an application packaged by tebako. Resource files
live in a read-only in-memory filesystem (the memfs), mounted under a fixed
prefix. The runtime copies the ones a library needs into a writable cache
directory and redirects the library there. This project models four parts of
that runtime as pure functions over strings, sequences and an abstract
filesystem, and proves what they promise.

- **Memfs extraction** (`TebakoRuntime.extract`, `extract_memfs`). A path
  argument may be quoted. Its quotes are stripped, and the path is checked for
  being an existing file under the mount prefix. Such a file is copied into
  the cache, with its same-extension siblings when `wild` is set, unless
  `cache/basename` already exists. The cache path is returned, re-quoted
  like the argument. Any other argument comes back byte for byte.
- **Require-hook dispatcher** (`TebakoRuntime.process` and the
  `Kernel#require` wrapper). A pre-processing hook runs, then the real
  `require`, then an adapter hook. What the real `require` does is passed on
  untouched: its result, or the exception it raises, which ends the call
  before the adapter stage. The two `process` flags decide whether the "no
  pre-processing or adapter definitions" line is printed. Trace lines and
  loads are events of a trace.
- **SassC load paths** (`SassC::Engine#load_files`, `load_path`,
  `load_paths`). Memfs include paths are rewritten to the cache directory.
  Each rewritten directory is populated at most once, as recorded in the
  append-only ledger `@@loaded_pathes`. The rewritten paths are joined with
  the path separator.
- **FFI platform stub** (`FFI::Platform::ARCH`, `OS`, `LIBPREFIX`,
  `LIBSUFFIX`, `PASS_THROUGH`). The host CPU and OS strings are classified
  by first match, and the shared-library naming follows from `OS`.
  `PASS_THROUGH` is `FfiPlatform.PassThrough`, always true.

Modules:
- `Strings`: `Option`, prefix, suffix and unanchored substring tests, ASCII
  `downcase`, the quote helpers, and `join` with its inverse split.
- `Paths`: the abstract filesystem `FileSys` (the set of existing paths),
  `File.basename`/`dirname`/`extname`/`join`, and `FileUtils.cp_r` as
  `TreeCopy`/`CopyInto`.
- `Memfs`, `Dispatch`, `SassC` and `FfiPlatform`: one module per source file.

Environment inputs are parameters:
- the Ruby platform string;
- the mount prefix and the cache directory;
- `log_enabled`;
- how the real `require` came back (its result, or an exception);
- the result of each hook's `require_relative`;
- `RbConfig` `host_cpu`/`host_os`;
- `File::PATH_SEPARATOR`.

The quote helpers come from `lib/tebako-runtime/string.rb`, which is not part
of this model. They are modelled as one double quote at each end: `quoted?`
means at least two characters with `"` first and last.

## Model

| member | source | states |
|---|---|---|
| Memfs.CompilerMemfs | lib/tebako-runtime/memfs.rb:38 | The mount prefix is "A:/__tebako_memfs__" exactly when the Ruby platform names msys, mingw or cygwin, and "/__tebako_memfs__" otherwise. |
| Memfs.CompilerMemfsExamples | lib/tebako-runtime/memfs.rb:38 | The platform "x64-mingw-ucrt" gets the "A:/__tebako_memfs__" prefix and "x86_64-linux" gets "/__tebako_memfs__". |
| Memfs.Glob | lib/tebako-runtime/memfs.rb:44 | The sibling glob returns only existing entries of the given directory whose names end in the extension. |
| Memfs.Sources | lib/tebako-runtime/memfs.rb:43-47 | A plain extraction copies exactly the file. A wild one copies exactly the existing entries whose `dirname` is the file's `dirname` and whose basename the glob `*<extname>` matches: non-empty, no leading dot, ending in the extension. Nothing else is copied. |
| Memfs.Extract | lib/tebako-runtime/memfs.rb:42-49 | One `cp_r` of those sources into `extract_path`. Nothing that existed is lost. The whole tree of every existing source is copied to `extract_path/basename(source)`. Every new path is the copy of some source's tree. |
| Memfs.WildSourcesIncludeFile | lib/tebako-runtime/memfs.rb:43-44 | A wild extraction copies the file itself if and only if it exists and its basename is non-empty and does not start with a dot. |
| Memfs.IsMemfsFile | lib/tebako-runtime/memfs.rb:55 | A path is extracted only if it exists and is the mount prefix followed by a remainder. |
| Memfs.CacheTarget | lib/tebako-runtime/memfs.rb:57 | The target starts with the cache directory and ends with the file's basename, with exactly one slash between them. No slash is added when the cache directory already ends in one. |
| Memfs.CacheTargetSplits | lib/tebako-runtime/memfs.rb:57 | For a cache directory without a trailing slash and a file with a non-empty basename, the target's `dirname` is the cache directory and its `basename` is the file's basename. |
| Memfs.Requote | lib/tebako-runtime/memfs.rb:55-60 | When the argument was quoted, the result is quoted and unquotes to the bare path. Otherwise the result is the bare path itself. |
| Memfs.ExtractOnce | lib/tebako-runtime/memfs.rb:57-58 | A copy into the cache happens if and only if `cache/basename` is absent, and then it copies the plain or wild sources of the file. Without a copy the filesystem is unchanged. With one, the filesystem is the `cp_r` result. When the file is among its own sources and exists, its copy exists afterwards. |
| Memfs.ExtractMemfs | lib/tebako-runtime/memfs.rb:52-61 | A non-memfs argument (missing, or outside the prefix) comes back byte-identical, quotes included, with no copy. A memfs file yields `cache/basename`, quoted exactly when the argument was. A copy happens exactly when that target is absent, into the explicit cache, with the plain or wild sources. The filesystem only grows. |
| Memfs.ExtractedPathExists | lib/tebako-runtime/memfs.rb:57-60 | After a memfs path is rewritten, the returned cache path exists, whenever the extraction copies the file itself. |
| Memfs.ExtractMemfsIdempotent | lib/tebako-runtime/memfs.rb:57-58 | A second identical call copies nothing, leaves the filesystem alone and returns the same string. |
| Memfs.SameBasenameNotCopied | lib/tebako-runtime/memfs.rb:57-58 | The dedup key is the target: another memfs file with the same basename is not copied and is redirected to the first file's copy. |
| Memfs.WildDotFileNotExtracted | lib/tebako-runtime/memfs.rb:44-60 | A wild extraction of a lone dot-file performs an empty copy. The path it returns does not exist. |
| Dispatch.Process | lib/tebako-runtime.rb:53-60 | A name that is not a key loads nothing, prints nothing and returns `!log_enabled`. A key loads exactly its hook and returns `log_enabled`. With logging on, its lines are exactly the announcement "<title> <name> => <hook>", which comes first, and then "skipped" if and only if the hook's load returned false, which comes after the hook load as the last event. Nothing is printed with logging off. |
| Dispatch.PreRequireMap | lib/tebako-runtime.rb:40-42 | Only "seven_zip_ruby" has a pre-processing hook, "tebako-runtime/pre/seven-zip". |
| Dispatch.PostRequireMap | lib/tebako-runtime.rb:44-47 | Exactly "ffi" and "sassc" have adapter hooks, "tebako-runtime/adapters/ffi" and "tebako-runtime/adapters/sassc". |
| Dispatch.AfterLoad | lib/tebako-runtime.rb:70-72 | After a returning real load: the loads are exactly the adapter hook, if any. With logging on, the lines are the adapter stage's announcement and "skipped" (when its load returned false), then the "no definitions" line when due. The "no definitions" line is printed exactly when neither stage returned true, and is then the last event. Without logging it is the only possible line. Every announcement belongs to the adapter stage. |
| Dispatch.Require | lib/tebako-runtime.rb:66-74 | The wrapper passes on what the real `require` did: its result, or its exception. When the real load returns, the loads are, in order, the pre-processing hook if any, the real load, then the adapter hook if any. When it raises, the loads stop after the real load, no adapter is attached, and the real load is the last event. |
| Dispatch.RequireTraces | lib/tebako-runtime.rb:56-72 | With logging on, the wrapper prints the pre-processing stage's announcement and "skipped" lines. Unless the real load raised, it then prints the adapter stage's lines and, for a name in neither map, the "no definitions" line, in that order. |
| Dispatch.RealLoadPosition | lib/tebako-runtime.rb:68-70 | The real load comes right after the pre-processing stage's events. Every announcement before it is a pre-processing one, and every one after it is an adapter one. |
| Dispatch.NoDefinitionsLine | lib/tebako-runtime.rb:54-72 | The "no definitions" line is printed only after a real load that returned. Then, with logging on, it is printed if and only if the name is in neither map, and with logging off if and only if the name is in both. When printed it is the last event. |
| Dispatch.NoDefinitionsAfterRaise | lib/tebako-runtime.rb:69-72 | A real `require` that raises skips the "no definitions" line. |
| Dispatch.NoDefinitionsAfterReturn | lib/tebako-runtime.rb:68-72 | After a real load that returned, the line is printed exactly for a name in neither map (logging on) or in both maps (logging off), as the last event. |
| Dispatch.QuietWithoutLogging | lib/tebako-runtime.rb:56-72 | With logging off, the only line the wrapper can print is the "no definitions" one. |
| Dispatch.DefaultMapsQuiet | lib/tebako-runtime.rb:40-72 | The default maps share no key, so with logging off the wrapper prints nothing for any name. |
| Dispatch.LoggingIsObservational | lib/tebako-runtime.rb:53-74 | The logging flag changes neither the loads nor what the wrapper returns or raises. |
| SassC.LoadFiles | lib/tebako-runtime/adapters/sassc.rb:40-44 | `m_path` is created and appended to the ledger even when `path` is missing. When `path` exists, the filesystem gains exactly `m_path` and the copy of everything below `path` to below `m_path`. The filesystem only grows. |
| SassC.Rewrite | lib/tebako-runtime/adapters/sassc.rb:47-54 | A path outside the memfs is kept. A memfs path becomes the cache directory followed by the rest after the prefix. |
| SassC.RewriteReversible | lib/tebako-runtime/adapters/sassc.rb:48 | Putting the prefix back in front of a rewritten path's remainder gives the original path. |
| SassC.Populate | lib/tebako-runtime/adapters/sassc.rb:46-51 | A non-memfs path touches neither the ledger nor the filesystem. A memfs path is recorded afterwards. When its rewritten form was not recorded before, the step is exactly `load_files(path, m_path)`; otherwise nothing changes. The ledger grows by at most that one new entry, at its end. |
| SassC.LoadPath | lib/tebako-runtime/adapters/sassc.rb:46-56 | `load_path` appends exactly the rewritten path to `new_paths` and performs the ledger step. |
| SassC.LoadPathOnce | lib/tebako-runtime/adapters/sassc.rb:49-51 | A second `load_path` of the same memfs path changes neither the ledger nor the filesystem. |
| SassC.AllPaths | lib/tebako-runtime/adapters/sassc.rb:59 | Without `:load_paths` the inputs are the global paths. With it they are its entries, in order, followed by the global paths. |
| SassC.LoadAll | lib/tebako-runtime/adapters/sassc.rb:61 | Calling `load_path` on each path in turn keeps the ledger at least as long and adds at most one entry per path. |
| SassC.LoadAllGrows | lib/tebako-runtime/adapters/sassc.rb:43-61 | Over any sequence of `load_path` calls the ledger is only appended to, and the filesystem only grows. |
| SassC.LoadAllRecords | lib/tebako-runtime/adapters/sassc.rb:50-61 | Every memfs path handed to `load_path` ends up in the ledger by its rewritten form. |
| SassC.LoadAllFresh | lib/tebako-runtime/adapters/sassc.rb:49-61 | Each entry the ledger gains is new to it and comes from a memfs path among the inputs. A ledger without duplicates stays without duplicates, so no directory is populated twice. |
| SassC.LoadAllSettled | lib/tebako-runtime/adapters/sassc.rb:50-61 | When every memfs input is already recorded, the calls change nothing. |
| SassC.LoadEach | lib/tebako-runtime/adapters/sassc.rb:60-61 | The loop yields one rewritten entry per input path, in order, and the state after `load_path` on each path in turn. |
| SassC.LoadPaths | lib/tebako-runtime/adapters/sassc.rb:58-64 | The inputs are `options[:load_paths]` (or none) followed by the global paths. The result is nil if and only if there are none; otherwise it is the rewritten entries joined by the separator. Splitting it gives back one entry per input, in order. The ledger only grows and stays free of duplicates. |
| FfiPlatform.ArchOfLowered | lib/tebako-runtime/pass-through/ffi-platform-stub.rb:31-50 | The first matching branch decides. Each known name comes out if and only if its own pattern matches and no earlier one does: "x86_64" for amd64/x86_64/x64; "i386" for i<digit>86/x86/i86pc; "powerpc64", "powerpc" and "sparcv9" in turn. "aarch64" comes out for arm64/aarch64, or for a line starting with "arm" when `OS` is "darwin", and "arm" comes out for such a line on any other OS. An unmatched CPU is returned as it is. |
| FfiPlatform.Arch | lib/tebako-runtime/pass-through/ffi-platform-stub.rb:30-51 | The same branch-by-branch result for the lower-cased host CPU: each known name if and only if its branch is the first to match, and the lower-cased CPU when nothing matches. |
| FfiPlatform.NamedArchsMatch | lib/tebako-runtime/pass-through/ffi-platform-stub.rb:31-48 | Every name `ARCH` gives matches its own branch's pattern, so the fall-through never produces one of them. |
| FfiPlatform.ArchFirstMatchX86_64 | lib/tebako-runtime/pass-through/ffi-platform-stub.rb:31-34 | "x86_64" also matches the i386 pattern, but the earlier amd64 branch wins and gives "x86_64". |
| FfiPlatform.ArchFirstMatchPpc64le | lib/tebako-runtime/pass-through/ffi-platform-stub.rb:35-38 | "ppc64le" also matches the plain ppc pattern, but the earlier branch wins and gives "powerpc64". |
| FfiPlatform.ArchFirstMatchArm64 | lib/tebako-runtime/pass-through/ffi-platform-stub.rb:41-43 | "arm64" also starts with "arm", but the earlier branch wins and gives "aarch64" on every OS. |
| FfiPlatform.ArchArmv7l | lib/tebako-runtime/pass-through/ffi-platform-stub.rb:43-48 | The CPU "armv7l" is "aarch64" when `OS` is "darwin" and "arm" otherwise. |
| FfiPlatform.ArchUnknownLowered | lib/tebako-runtime/pass-through/ffi-platform-stub.rb:49-50 | An unmatched CPU ("RiscV64") comes back lower-cased ("riscv64"). |
| FfiPlatform.ArchFixesKnown | lib/tebako-runtime/pass-through/ffi-platform-stub.rb:30-51 | Every name `ARCH` produces classifies as itself ("arm" only when `OS` is not "darwin"). |
| FfiPlatform.ArchIdempotent | lib/tebako-runtime/pass-through/ffi-platform-stub.rb:30-51 | `ARCH` is a normal form: classifying its result again gives the same result. |
| FfiPlatform.OsOfLowered | lib/tebako-runtime/pass-through/ffi-platform-stub.rb:54-73 | The first matching branch decides. "linux", "darwin", "freebsd", "netbsd" and "openbsd" each come out if and only if their own pattern matches and no earlier one does. So do "dragonflybsd" (for dragonfly) and "solaris" (for sunos or solaris). "windows" comes out for mingw or mswin after no earlier match, or for the host "windows" itself, which falls through. An unmatched host is returned as it is. |
| FfiPlatform.Os | lib/tebako-runtime/pass-through/ffi-platform-stub.rb:53-73 | The same branch-by-branch result for the lower-cased host OS, and the lower-cased host when nothing matches. |
| FfiPlatform.NamedOsesMatch | lib/tebako-runtime/pass-through/ffi-platform-stub.rb:55-70 | Every name `OS` gives by a named branch matches that branch's pattern, and "windows" matches none. |
| FfiPlatform.WindowsUnmatched | lib/tebako-runtime/pass-through/ffi-platform-stub.rb:55-70 | "windows" matches none of the `OS` patterns, not even mingw or mswin. |
| FfiPlatform.OsHostExamples | lib/tebako-runtime/pass-through/ffi-platform-stub.rb:55-70 | "linux-gnu" is "linux" and "mingw32" is "windows". |
| FfiPlatform.ClassifiesWindows | lib/tebako-runtime/pass-through/ffi-platform-stub.rb:69-72 | "windows" itself matches no OS pattern and is kept by the fall-through branch. |
| FfiPlatform.OsFixesKnown | lib/tebako-runtime/pass-through/ffi-platform-stub.rb:53-73 | Every name `OS` produces classifies as itself. |
| FfiPlatform.OsIdempotent | lib/tebako-runtime/pass-through/ffi-platform-stub.rb:53-73 | `OS` is a normal form: classifying its result again gives the same result. |
| FfiPlatform.LibPrefix | lib/tebako-runtime/pass-through/ffi-platform-stub.rb:75-82 | The prefix is "" if and only if `OS` names windows or msys. It is "cyg" if and only if `OS` names cygwin and neither of those. Otherwise it is "lib". |
| FfiPlatform.LibSuffix | lib/tebako-runtime/pass-through/ffi-platform-stub.rb:84-94 | The suffix is "dylib" if and only if `OS` names darwin. It is "dll" if and only if `OS` does not name darwin and names windows, cygwin or msys. Otherwise it is "so". |
| FfiPlatform.CygwinNaming | lib/tebako-runtime/pass-through/ffi-platform-stub.rb:71-88 | The host "cygwin" stays "cygwin" and gets the "cyg" prefix and the "dll" suffix. |
| FfiPlatform.LibNamingExamples | lib/tebako-runtime/pass-through/ffi-platform-stub.rb:75-94 | windows gives "" and "dll", darwin gives "lib" and "dylib", linux gives "lib" and "so". |
| FfiPlatform.DllNamingAgrees | lib/tebako-runtime/pass-through/ffi-platform-stub.rb:75-94 | For every host, the prefix differs from "lib" if and only if the suffix is "dll". |
| FfiPlatform.PassThrough | lib/tebako-runtime/pass-through/ffi-platform-stub.rb:96 | The stub declares `PASS_THROUGH` true. |
| Strings.ContainsOccurs | lib/tebako-runtime/pass-through/ffi-platform-stub.rb:31 | The unanchored match used for the `when /…/` branches holds if and only if the pattern occurs at some index. |
| Strings.LowerOfLower | lib/tebako-runtime/pass-through/ffi-platform-stub.rb:30-50 | `downcase` leaves a lower-case string unchanged. |
| Strings.Lower | lib/tebako-runtime/pass-through/ffi-platform-stub.rb:30 | `downcase` keeps the length, folds each character on its own, and leaves no ASCII capital. |
| Strings.Unquote | lib/tebako-runtime/memfs.rb:53-54 | Stripping the quotes shortens the string by two, and quoting again restores it. |
| Strings.IsQuoted | lib/tebako-runtime/memfs.rb:53 | A string is quoted exactly when it has at least two characters and is a double quote, an inner string and a double quote. |
| Strings.Quote | lib/tebako-runtime/memfs.rb:60 | Quoting adds one double quote at each end and keeps the string between them. |
| Strings.UnquoteQuote | lib/tebako-runtime/memfs.rb:54-60 | Unquoting a quoted string gives the string back. |
| Strings.SplitJoinWith | lib/tebako-runtime/adapters/sassc.rb:62 | Joining entries that do not contain the separator and splitting the result gives the entries back. |
| Strings.JoinWith | lib/tebako-runtime/adapters/sassc.rb:62 | Joining no entries gives "". A join starts with the first entry and ends with the last, and the separator appears when there are two or more entries. |
| Paths.Basename | lib/tebako-runtime/memfs.rb:57 | The basename contains no slash, ends the path, and follows a slash whenever it is shorter than the path. |
| Paths.Dirname | lib/tebako-runtime/memfs.rb:44 | A path without a slash has `dirname` ".". Otherwise the path is the `dirname`, a slash and the basename, or it is "/" followed by the basename, with `dirname` "/". |
| Paths.Extname | lib/tebako-runtime/memfs.rb:44 | The extension ends the basename. It is empty exactly when the basename has no dot after its leading dots. Otherwise it starts at the last dot, which is not one of the leading dots. |
| Paths.Join | lib/tebako-runtime/memfs.rb:57 | The joined path starts with the directory and ends with the name, with exactly one slash between them. When the directory already ends in a slash it is the two put together; otherwise (an empty directory included) a slash is inserted. |
| Paths.JoinSplits | lib/tebako-runtime/memfs.rb:57 | For a directory without a trailing slash and a non-empty name without slashes, the joined path's `basename` is the name and its `dirname` is the directory. |
| Paths.TreeCopy | lib/tebako-runtime/adapters/sassc.rb:42 | Copying an existing tree creates its destination, and the copy of every path in the source tree. Every path it creates is such a copy. |
| Paths.CopyInto | lib/tebako-runtime/memfs.rb:48 | `cp_r` of an array of sources keeps every existing path and adds nothing when there are no sources. For each source it adds the whole copy of the source's tree at `dest/basename(source)`, and it adds only such copies. |

## Left out

- The `Mutex` around the ledger (adapters/sassc.rb:37,49): the ledger check and append is a single step of a sequential state transition. Concurrent callers are not modelled.
- `Dir.mktmpdir` for the default cache and the `at_exit` removal (memfs.rb:39,65-67): the cache directory is a parameter, and process exit is outside a pure model.
- Failures of `FileUtils.cp_r` and `mkdir_p` (a missing source, permissions, a file where a directory is expected): a missing source contributes nothing, and no other failure is modelled.
- `mkdir_p` creating missing parents of `m_path`: only `m_path` itself is added to the filesystem.
- Paths.Basename, Paths.Dirname, Paths.Extname: POSIX only. They do not strip trailing slashes, collapse "//", or treat backslashes or drive letters specially.
- Memfs.CacheTarget: `Pathname#+` is modelled as a plain join. Ruby also cleans up both sides and the model does not. A "." or ".." basename is resolved (`cache + ".."` is the cache's parent). Trailing "." components of the cache path are dropped (`Pathname(".") + "a.so"` is "a.so", `Pathname("/tmp/c/.") + "a.so"` is "/tmp/c/a.so"). Repeated trailing slashes collapse (`Pathname("/tmp/c//") + "a.so"` is "/tmp/c/a.so"). For such cache paths or basenames, the model's target string (which is returned and tested for existence) differs from Ruby's.
- Dispatch.Process: a hook file whose `require_relative` raises is not modelled. The hook's load is assumed to come back with true or false.
- Memfs.Glob: the pattern is matched literally. Glob metacharacters inside the directory or the extension are not interpreted, and hidden-file handling is reduced to "a leading dot is not matched by `*`".
- Strings.Lower: ASCII case folding only. Ruby's `downcase` also folds non-ASCII letters.
- SassC.Rewrite: the cache string is inserted verbatim. Backslash sequences that `String#sub` would interpret in a replacement string are not modelled.
- `lib/tebako-runtime/string.rb` is not part of this model. The quote helpers assume one `"` at each end, and a one-character `"` is not quoted. Single quotes are not treated as quotes.
- Memfs.ExtractMemfsIdempotent: it requires the file to be among its own copy sources. A wild extraction of a dot-file leaves the target missing, so a second call copies again (see Memfs.WildDotFileNotExtracted). It still returns the same string and leaves the filesystem unchanged.
- The `puts` text: each line is an event carrying its data (stage, name, hook), not a formatted string.
- The order of the constants in the stub (`ARCH` reads `OS` before `OS` is defined, ffi-platform-stub.rb:44,53): `OS` is passed to `FfiPlatform.Arch` as a parameter, and no claim is made about what Ruby's load order gives.
- `FFI::Platform.mac?` (ffi-platform-stub.rb:98-100): a bare pattern test on `RUBY_PLATFORM` that the rest of the stub does not use.
- `TebakoRuntime.full_gem_path` (tebako-runtime.rb:49-51): a call into RubyGems.
- `lib/tebako-runtime/adapters/ffi.rb` and `lib/tebako-runtime/pre/seven-zip.rb`: the hook files themselves (a delegation to `extract_memfs`; gem lookup, copying and `$LOAD_PATH` changes at load time). The dispatcher only sees whether their load returned true.
- `lib/tebako/runtime.rb`: an earlier revision of the runtime entry point, not used by the modelled code.
- Cache-directory fallback, `set_bundle_gemfile` and the `TEBAKO_PASS_THROUGH` gate: the repository's RSpec files exercise them, but the modelled source files contain no implementation of them.

=== FILE: dispatch.dfy ===
/**
  The require-hook dispatcher: `TebakoRuntime.process` and the
  `Kernel#require` wrapper that runs a pre-processing hook, the real
  `require`, and an adapter hook, in that order.

  The logging flag, the result of the real `require` and the result of
  each hook's `require_relative` are parameters; the `puts` lines and the
  loads become events of a trace.
 */
module Dispatch {

  /** The argument of `require`. */
  type Name = string
  /** A hook file, loaded with `require_relative`. */
  type Feature = string

  /** Which of the two maps a hook was found in. */
  datatype Stage = PreProcessing | AttachingAdapter

  datatype Event =
    | HookTrace(stage: Stage, name: Name, hook: Feature)   // "<title> <name> => <hook>"
    | HookLoad(hook: Feature)                              // require_relative hook
    | SkippedTrace(name: Name)                             // "skipped <name>"
    | RealLoad(name: Name)                                 // original_require name
    | NoDefinitionsTrace(name: Name)                       // "no pre-processing or adapter definitions for <name>"

  predicate IsLoad(e: Event) {
    e.HookLoad? || e.RealLoad?
  }

  /** The loads of a trace, in order. */
  function Loads(events: seq<Event>): (loads: seq<Event>)
    ensures forall e :: e in loads ==> IsLoad(e)
    ensures |loads| <= |events|
  {
    if |events| == 0 then []
    else (if IsLoad(events[0]) then [events[0]] else []) + Loads(events[1..])
  }

  /** The trace lines of a trace, in order. */
  function Traces(events: seq<Event>): (lines: seq<Event>)
    ensures forall e :: e in lines ==> !IsLoad(e)
    ensures |lines| <= |events|
  {
    if |events| == 0 then []
    else (if IsLoad(events[0]) then [] else [events[0]]) + Traces(events[1..])
  }

  lemma {:induction false} LoadsAppend(a: seq<Event>, b: seq<Event>)
    ensures Loads(a + b) == Loads(a) + Loads(b)
    decreases |a|
  {
    if |a| > 0 {
      assert (a + b)[0] == a[0];
      assert (a + b)[1..] == a[1..] + b;
      LoadsAppend(a[1..], b);
    } else {
      assert a + b == b;
    }
  }

  lemma {:induction false} TracesAppend(a: seq<Event>, b: seq<Event>)
    ensures Traces(a + b) == Traces(a) + Traces(b)
    decreases |a|
  {
    if |a| > 0 {
      assert (a + b)[0] == a[0];
      assert (a + b)[1..] == a[1..] + b;
      TracesAppend(a[1..], b);
    } else {
      assert a + b == b;
    }
  }

  lemma {:induction false} TracesSubset(events: seq<Event>)
    ensures forall e :: e in Traces(events) ==> e in events
    decreases |events|
  {
    if |events| > 0 {
      TracesSubset(events[1..]);
    }
  }

  /** `PRE_REQUIRE_MAP`: the one library with a pre-processing hook. */
  function PreRequireMap(): (hooks: map<Name, Feature>)
    ensures hooks.Keys == {"seven_zip_ruby"}
    ensures hooks["seven_zip_ruby"] == "tebako-runtime/pre/seven-zip"
  {
    map["seven_zip_ruby" := "tebako-runtime/pre/seven-zip"]
  }

  /** `POST_REQUIRE_MAP`: the libraries with an adapter hook. */
  function PostRequireMap(): (hooks: map<Name, Feature>)
    ensures hooks.Keys == {"ffi", "sassc"}
    ensures hooks["ffi"] == "tebako-runtime/adapters/ffi" && hooks["sassc"] == "tebako-runtime/adapters/sassc"
  {
    map["ffi" := "tebako-runtime/adapters/ffi",
        "sassc" := "tebako-runtime/adapters/sassc"]
  }

  /** What `process` did, and the flag it returned. */
  datatype Processed = Processed(events: seq<Event>, flag: bool)

  /** The hook load `name` gets from `hooks`, if any. */
  function HookFor(hooks: map<Name, Feature>, name: Name): seq<Event> {
    if name in hooks then [HookLoad(hooks[name])] else []
  }

  /** `TebakoRuntime.process(name, map, title)`. */
  function Process(name: Name, hooks: map<Name, Feature>, stage: Stage, logEnabled: bool,
                   hookLoaded: Feature -> bool): (p: Processed)
    // a name without a hook: nothing happens, and the flag is the negated log setting
    ensures name !in hooks ==> p.events == [] && p.flag == !logEnabled
    // a name with a hook: exactly that hook is loaded, and the flag is the log setting
    ensures name in hooks ==> p.flag == logEnabled && Loads(p.events) == [HookLoad(hooks[name])]
    ensures SkippedTrace(name) in p.events <==> name in hooks && logEnabled && !hookLoaded(hooks[name])
    ensures !logEnabled ==> Traces(p.events) == []
    ensures NoDefinitionsTrace(name) !in p.events
    // with logging on, the hook is announced first, and "skipped" follows the hook load
    ensures name in hooks ==>
              Traces(p.events) == (if logEnabled then [HookTrace(stage, name, hooks[name])] else []) +
                                  (if logEnabled && !hookLoaded(hooks[name]) then [SkippedTrace(name)] else [])
    ensures name in hooks && logEnabled ==> p.events[0] == HookTrace(stage, name, hooks[name])
    ensures SkippedTrace(name) in p.events ==> p.events[|p.events| - 1] == SkippedTrace(name)
    ensures forall e :: e in p.events && e.HookTrace? ==> e.stage == stage
  {
    if name !in hooks then Processed([], !logEnabled)
    else
      var hook := hooks[name];
      var announce := if logEnabled then [HookTrace(stage, name, hook)] else [];
      var skipped := if logEnabled && !hookLoaded(hook) then [SkippedTrace(name)] else [];
      LoadsAppend(announce, [HookLoad(hook)]);
      LoadsAppend(announce + [HookLoad(hook)], skipped);
      TracesAppend(announce, [HookLoad(hook)]);
      TracesAppend(announce + [HookLoad(hook)], skipped);
      Processed(announce + [HookLoad(hook)] + skipped, logEnabled)
  }

  /** How the real `require` came back: with its boolean result, or by
      raising (a `LoadError`, say), which the wrapper does not rescue. */
  datatype Outcome = Returned(value: bool) | Raised

  /** What one call of the `require` wrapper did, and how it came back. */
  datatype Required = Required(result: Outcome, events: seq<Event>)

  lemma LoadsAround(a: seq<Event>, name: Name, b: seq<Event>)
    ensures Loads(a + [RealLoad(name)] + b) == Loads(a) + [RealLoad(name)] + Loads(b)
  {
    assert Loads([RealLoad(name)]) == [RealLoad(name)];
    LoadsAppend(a, [RealLoad(name)]);
    LoadsAppend(a + [RealLoad(name)], b);
  }

  lemma TracesAround(a: seq<Event>, name: Name, b: seq<Event>)
    ensures Traces(a + [RealLoad(name)] + b) == Traces(a) + Traces(b)
  {
    assert Traces([RealLoad(name)]) == [];
    TracesAppend(a, [RealLoad(name)]);
    TracesAppend(a + [RealLoad(name)], b);
  }

  /** What the wrapper does once the real `require` has returned: the
      adapter stage, then the "no definitions" line unless one of the two
      stages returned true (`preFlag` is the first stage's flag). */
  function AfterLoad(name: Name, post: map<Name, Feature>, logEnabled: bool, hookLoaded: Feature -> bool,
                     preFlag: bool): (events: seq<Event>)
    ensures Loads(events) == HookFor(post, name)
    ensures NoDefinitionsTrace(name) in events <==> !preFlag && (name in post <==> !logEnabled)
    ensures NoDefinitionsTrace(name) in events ==> events[|events| - 1] == NoDefinitionsTrace(name)
    ensures !logEnabled ==> forall e :: e in Traces(events) ==> e == NoDefinitionsTrace(name)
    ensures forall e :: e in events && e.HookTrace? ==> e.stage == AttachingAdapter
    // with logging on: the adapter stage's lines, then the "no definitions" line if due
    ensures logEnabled ==>
              Traces(events) == StageLines(AttachingAdapter, name, post, hookLoaded) +
                                (if !preFlag && name !in post then [NoDefinitionsTrace(name)] else [])
  {
    var p2 := Process(name, post, AttachingAdapter, logEnabled, hookLoaded);
    var tail := if preFlag || p2.flag then [] else [NoDefinitionsTrace(name)];
    assert Loads(tail) == [];
    assert Traces(tail) == tail;
    LoadsAppend(p2.events, tail);
    TracesAppend(p2.events, tail);
    p2.events + tail
  }

  /** The `Kernel#require` wrapper, with hook maps `pre` and `post`;
      `outcome` is how the real `require` of `name` came back. */
  function Require(name: Name, pre: map<Name, Feature>, post: map<Name, Feature>, logEnabled: bool,
                   outcome: Outcome, hookLoaded: Feature -> bool): (r: Required)
    // the real load's result (or its exception) comes back untouched
    ensures r.result == outcome
    // pre-processing hook, then the real load, then the adapter hook
    ensures outcome.Returned? ==> Loads(r.events) == HookFor(pre, name) + [RealLoad(name)] + HookFor(post, name)
    // a raising load ends the call: no adapter hook and no further line
    ensures outcome.Raised? ==> Loads(r.events) == HookFor(pre, name) + [RealLoad(name)]
    ensures outcome.Raised? ==> |r.events| > 0 && r.events[|r.events| - 1] == RealLoad(name)
  {
    var p1 := Process(name, pre, PreProcessing, logEnabled, hookLoaded);
    var after := if outcome.Raised? then [] else AfterLoad(name, post, logEnabled, hookLoaded, p1.flag);
    LoadsAround(p1.events, name, after);
    assert outcome.Raised? ==> p1.events + [RealLoad(name)] + after == p1.events + [RealLoad(name)];
    Required(outcome, p1.events + [RealLoad(name)] + after)
  }

  /** The "no definitions" line: printed only after a real load that
      returned; then with logging exactly for a name in neither map, and
      without logging exactly for a name in both, and always as the last
      event. */
  lemma NoDefinitionsLine(name: Name, pre: map<Name, Feature>, post: map<Name, Feature>, logEnabled: bool,
                          outcome: Outcome, hookLoaded: Feature -> bool)
    ensures var r := Require(name, pre, post, logEnabled, outcome, hookLoaded);
            && (NoDefinitionsTrace(name) in r.events <==>
                 outcome.Returned? &&
                 ((logEnabled && name !in pre && name !in post) || (!logEnabled && name in pre && name in post)))
            && (NoDefinitionsTrace(name) in r.events ==> r.events[|r.events| - 1] == NoDefinitionsTrace(name))
  {
    if outcome.Raised? {
      NoDefinitionsAfterRaise(name, pre, post, logEnabled, hookLoaded);
    } else {
      NoDefinitionsAfterReturn(name, pre, post, logEnabled, outcome.value, hookLoaded);
    }
  }

  lemma NoDefinitionsAfterRaise(name: Name, pre: map<Name, Feature>, post: map<Name, Feature>, logEnabled: bool,
                                hookLoaded: Feature -> bool)
    ensures NoDefinitionsTrace(name) !in Require(name, pre, post, logEnabled, Raised, hookLoaded).events
  {
    var p1 := Process(name, pre, PreProcessing, logEnabled, hookLoaded);
    assert Require(name, pre, post, logEnabled, Raised, hookLoaded).events == p1.events + [RealLoad(name)];
  }

  lemma NoDefinitionsAfterReturn(name: Name, pre: map<Name, Feature>, post: map<Name, Feature>, logEnabled: bool,
                                 value: bool, hookLoaded: Feature -> bool)
    ensures var r := Require(name, pre, post, logEnabled, Returned(value), hookLoaded);
            && (NoDefinitionsTrace(name) in r.events <==>
                 (logEnabled && name !in pre && name !in post) || (!logEnabled && name in pre && name in post))
            && (NoDefinitionsTrace(name) in r.events ==> r.events[|r.events| - 1] == NoDefinitionsTrace(name))
  {
    var p1 := Process(name, pre, PreProcessing, logEnabled, hookLoaded);
    var head := p1.events + [RealLoad(name)];
    var after := AfterLoad(name, post, logEnabled, hookLoaded, p1.flag);
    assert Require(name, pre, post, logEnabled, Returned(value), hookLoaded).events == head + after;
    assert NoDefinitionsTrace(name) !in head;
    LastLineAfter(head, after, NoDefinitionsTrace(name));
    assert p1.flag == if name in pre then logEnabled else !logEnabled;
    NoDefinitionsFlags(name in pre, name in post, logEnabled, p1.flag);
  }

  /** A line absent from `head` is in `head + after` exactly when it is in
      `after`, and is last there when it is last in `after`. */
  lemma LastLineAfter(head: seq<Event>, after: seq<Event>, line: Event)
    requires line !in head
    ensures line in head + after <==> line in after
    ensures line in after && after[|after| - 1] == line ==> (head + after)[|head + after| - 1] == line
  {
  }

  /** The flag logic behind the "no definitions" line: the first stage's
      flag is the log setting when the name has a pre-processing hook and
      its negation otherwise. */
  lemma NoDefinitionsFlags(inPre: bool, inPost: bool, logEnabled: bool, preFlag: bool)
    requires preFlag == if inPre then logEnabled else !logEnabled
    ensures (!preFlag && (inPost <==> !logEnabled)) <==>
            ((logEnabled && !inPre && !inPost) || (!logEnabled && inPre && inPost))
  {
  }

  /** Without logging the only line the wrapper can print is the "no
      definitions" one. */
  lemma QuietWithoutLogging(name: Name, pre: map<Name, Feature>, post: map<Name, Feature>,
                            outcome: Outcome, hookLoaded: Feature -> bool)
    ensures forall e :: e in Traces(Require(name, pre, post, false, outcome, hookLoaded).events) ==>
              e == NoDefinitionsTrace(name)
  {
    var p1 := Process(name, pre, PreProcessing, false, hookLoaded);
    var after := if outcome.Raised? then [] else AfterLoad(name, post, false, hookLoaded, p1.flag);
    TracesAround(p1.events, name, after);
  }

  /** The default maps have no name in common, so with logging disabled the
      wrapper never prints anything for them. */
  lemma DefaultMapsQuiet(name: Name, outcome: Outcome, hookLoaded: Feature -> bool)
    ensures Traces(Require(name, PreRequireMap(), PostRequireMap(), false, outcome, hookLoaded).events) == []
  {
    var r := Require(name, PreRequireMap(), PostRequireMap(), false, outcome, hookLoaded);
    assert name in PreRequireMap() ==> name == "seven_zip_ruby";
    assert name in PostRequireMap() ==> name == "ffi" || name == "sassc";
    NoDefinitionsLine(name, PreRequireMap(), PostRequireMap(), false, outcome, hookLoaded);
    assert NoDefinitionsTrace(name) !in r.events;
    QuietWithoutLogging(name, PreRequireMap(), PostRequireMap(), outcome, hookLoaded);
    NoTracesLeft(r.events, NoDefinitionsTrace(name));
  }

  /** A trace whose only possible line is absent has no lines at all. */
  lemma NoTracesLeft(events: seq<Event>, line: Event)
    requires forall e :: e in Traces(events) ==> e == line
    requires line !in events
    ensures Traces(events) == []
  {
    TracesSubset(events);
  }

  /** Tracing is observational: the logging flag changes neither the loads
      nor what the wrapper returns or raises. */
  lemma LoggingIsObservational(name: Name, pre: map<Name, Feature>, post: map<Name, Feature>,
                               outcome: Outcome, hookLoaded: Feature -> bool)
    ensures var on := Require(name, pre, post, true, outcome, hookLoaded);
            var off := Require(name, pre, post, false, outcome, hookLoaded);
            on.result == off.result && Loads(on.events) == Loads(off.events)
  {
  }

  /** The lines one `process` stage prints with logging on: the
      announcement of the hook, then "skipped" if its load returned false. */
  function StageLines(stage: Stage, name: Name, hooks: map<Name, Feature>, hookLoaded: Feature -> bool): seq<Event> {
    if name in hooks then
      [HookTrace(stage, name, hooks[name])] + (if !hookLoaded(hooks[name]) then [SkippedTrace(name)] else [])
    else []
  }

  /** With logging on, the wrapper prints the pre-processing stage's lines,
      then (unless the real load raised) the adapter stage's lines and the
      "no definitions" line for a name in neither map. */
  lemma RequireTraces(name: Name, pre: map<Name, Feature>, post: map<Name, Feature>,
                      outcome: Outcome, hookLoaded: Feature -> bool)
    ensures Traces(Require(name, pre, post, true, outcome, hookLoaded).events) ==
            StageLines(PreProcessing, name, pre, hookLoaded) +
            (if outcome.Raised? then []
             else StageLines(AttachingAdapter, name, post, hookLoaded) +
                  (if name !in pre && name !in post then [NoDefinitionsTrace(name)] else []))
  {
    var p1 := Process(name, pre, PreProcessing, true, hookLoaded);
    assert Traces(p1.events) == StageLines(PreProcessing, name, pre, hookLoaded);
    var after := if outcome.Raised? then [] else AfterLoad(name, post, true, hookLoaded, p1.flag);
    assert Require(name, pre, post, true, outcome, hookLoaded).events == p1.events + [RealLoad(name)] + after;
    TracesAround(p1.events, name, after);
  }

  /** The real load sits right after the pre-processing stage's events:
      every announcement before it belongs to the pre-processing stage, and
      every one after it to the adapter stage. */
  lemma RealLoadPosition(name: Name, pre: map<Name, Feature>, post: map<Name, Feature>, logEnabled: bool,
                         outcome: Outcome, hookLoaded: Feature -> bool)
    ensures var r := Require(name, pre, post, logEnabled, outcome, hookLoaded);
            var k := |Process(name, pre, PreProcessing, logEnabled, hookLoaded).events|;
            && k < |r.events| && r.events[k] == RealLoad(name)
            && (forall e :: e in r.events[..k] && e.HookTrace? ==> e.stage == PreProcessing)
            && (forall e :: e in r.events[k + 1..] && e.HookTrace? ==> e.stage == AttachingAdapter)
  {
    var p1 := Process(name, pre, PreProcessing, logEnabled, hookLoaded);
    var after := if outcome.Raised? then [] else AfterLoad(name, post, logEnabled, hookLoaded, p1.flag);
    assert Require(name, pre, post, logEnabled, outcome, hookLoaded).events == p1.events + [RealLoad(name)] + after;
    AroundRealLoad(p1.events, name, after);
  }

  /** Cutting `a + [RealLoad(name)] + b` at `|a|` gives back its parts. */
  lemma AroundRealLoad(a: seq<Event>, name: Name, b: seq<Event>)
    ensures var s := a + [RealLoad(name)] + b;
            |a| < |s| && s[|a|] == RealLoad(name) && s[..|a|] == a && s[|a| + 1..] == b
  {
  }
}

=== FILE: ffi_platform.dfy ===
/**
  The FFI platform stub loaded in pass-through mode: first-match
  classification of the host CPU and host OS strings (`ARCH`, `OS`), and
  the shared-library naming scheme derived from the OS (`LIBPREFIX`,
  `LIBSUFFIX`).

  `ARCH` consults `OS` for CPU strings starting with "arm"; the OS value
  it sees is a parameter here.
 */
module FfiPlatform {
  import opened Strings

  /** `/i\d86/` matches at index `k` or later: an "i", one decimal digit,
      then "86". */
  predicate IDigit86From(s: string, k: nat)
    decreases |s| - k
  {
    k + 4 <= |s| &&
    ((s[k] == 'i' && '0' <= s[k + 1] <= '9' && s[k + 2] == '8' && s[k + 3] == '6') || IDigit86From(s, k + 1))
  }

  predicate ContainsIDigit86(s: string) {
    IDigit86From(s, 0)
  }

  /** `/^arm/`: "arm" at the start of the string or of any line in it. */
  predicate LineStartsWithArm(s: string) {
    StartsWith(s, "arm") || exists k :: 0 <= k < |s| && s[k] == '\n' && StartsWith(s[k + 1..], "arm")
  }

  predicate IsAmd64(c: string) { Contains(c, "amd64") || Contains(c, "x86_64") || Contains(c, "x64") }
  predicate IsI386(c: string) { ContainsIDigit86(c) || Contains(c, "x86") || Contains(c, "i86pc") }
  predicate IsPpc64(c: string) { Contains(c, "ppc64") || Contains(c, "powerpc64") }
  predicate IsPpc(c: string) { Contains(c, "ppc") || Contains(c, "powerpc") }
  predicate IsSparc(c: string) { Contains(c, "sparcv9") || Contains(c, "sparc64") }
  predicate IsArm64(c: string) { Contains(c, "arm64") || Contains(c, "aarch64") }

  const KnownArchs: set<string> := {"x86_64", "i386", "powerpc64", "powerpc", "sparcv9", "aarch64", "arm"}

  /** Does some named branch of the `ARCH` case match the lower-cased CPU? */
  predicate ArchMatched(c: string) {
    IsAmd64(c) || IsI386(c) || IsPpc64(c) || IsPpc(c) || IsSparc(c) || IsArm64(c) || LineStartsWithArm(c)
  }

  /** None of the five branches before the 64-bit ARM one matches. */
  predicate PastSparc(c: string) {
    !IsAmd64(c) && !IsI386(c) && !IsPpc64(c) && !IsPpc(c) && !IsSparc(c)
  }

  /** Each name `ARCH` gives matches its own branch's pattern, so the
      fall-through can never produce one of them. */
  lemma NamedArchsMatch()
    ensures IsAmd64("x86_64") && IsI386("i386") && IsPpc64("powerpc64") && IsPpc("powerpc")
    ensures IsSparc("sparcv9") && IsArm64("aarch64") && LineStartsWithArm("arm")
  {
    ContainsSelf("x86_64");
    assert ContainsIDigit86("i386");
    ContainsSelf("powerpc64");
    ContainsSelf("powerpc");
    ContainsSelf("sparcv9");
    ContainsSelf("aarch64");
    assert StartsWith("arm", "arm");
  }

  /** The `ARCH` case over the lower-cased CPU string `c`: the first
      matching branch names the result. */
  function ArchOfLowered(c: string, os: string): (arch: string)
    ensures arch in KnownArchs || arch == c
    ensures !ArchMatched(c) ==> arch == c
    ensures ArchMatched(c) ==> arch in KnownArchs
    ensures arch == "x86_64" <==> IsAmd64(c)
    ensures arch == "i386" <==> !IsAmd64(c) && IsI386(c)
    ensures arch == "powerpc64" <==> !IsAmd64(c) && !IsI386(c) && IsPpc64(c)
    ensures arch == "powerpc" <==> !IsAmd64(c) && !IsI386(c) && !IsPpc64(c) && IsPpc(c)
    ensures arch == "sparcv9" <==> !IsAmd64(c) && !IsI386(c) && !IsPpc64(c) && !IsPpc(c) && IsSparc(c)
    ensures arch == "aarch64" <==> PastSparc(c) && (IsArm64(c) || (LineStartsWithArm(c) && os == "darwin"))
    ensures arch == "arm" <==> PastSparc(c) && !IsArm64(c) && LineStartsWithArm(c) && os != "darwin"
  {
    NamedArchsMatch();
    if IsAmd64(c) then "x86_64"
    else if IsI386(c) then "i386"
    else if IsPpc64(c) then "powerpc64"
    else if IsPpc(c) then "powerpc"
    else if IsSparc(c) then "sparcv9"
    else if IsArm64(c) then "aarch64"
    else if LineStartsWithArm(c) then (if os == "darwin" then "aarch64" else "arm")
    else c
  }

  /** `FFI::Platform::ARCH` for the host CPU `hostCpu`, given the `OS` value. */
  function Arch(hostCpu: string, os: string): (arch: string)
    ensures arch in KnownArchs || arch == Lower(hostCpu)
    ensures !ArchMatched(Lower(hostCpu)) ==> arch == Lower(hostCpu)
    ensures ArchMatched(Lower(hostCpu)) ==> arch in KnownArchs
    ensures var c := Lower(hostCpu); arch == "x86_64" <==> IsAmd64(c)
    ensures var c := Lower(hostCpu); arch == "i386" <==> !IsAmd64(c) && IsI386(c)
    ensures var c := Lower(hostCpu); arch == "powerpc64" <==> !IsAmd64(c) && !IsI386(c) && IsPpc64(c)
    ensures var c := Lower(hostCpu); arch == "powerpc" <==> !IsAmd64(c) && !IsI386(c) && !IsPpc64(c) && IsPpc(c)
    ensures var c := Lower(hostCpu);
            arch == "sparcv9" <==> !IsAmd64(c) && !IsI386(c) && !IsPpc64(c) && !IsPpc(c) && IsSparc(c)
    ensures var c := Lower(hostCpu);
            arch == "aarch64" <==> PastSparc(c) && (IsArm64(c) || (LineStartsWithArm(c) && os == "darwin"))
    ensures var c := Lower(hostCpu);
            arch == "arm" <==> PastSparc(c) && !IsArm64(c) && LineStartsWithArm(c) && os != "darwin"
  {
    ArchOfLowered(Lower(hostCpu), os)
  }

  const KnownOses: set<string> := {"linux", "darwin", "freebsd", "netbsd", "openbsd", "dragonflybsd", "solaris", "windows"}

  /** Does some named branch of the `OS` case match the lower-cased host? */
  predicate OsMatched(h: string) {
    || Contains(h, "linux") || Contains(h, "darwin") || Contains(h, "freebsd") || Contains(h, "netbsd")
    || Contains(h, "openbsd") || Contains(h, "dragonfly") || Contains(h, "sunos") || Contains(h, "solaris")
    || Contains(h, "mingw") || Contains(h, "mswin")
  }

  /** None of the BSD branches (nor linux or darwin before them) matches. */
  predicate PastOpenbsd(h: string) {
    !Contains(h, "linux") && !Contains(h, "darwin") && !Contains(h, "freebsd") && !Contains(h, "netbsd")
    && !Contains(h, "openbsd")
  }

  /** Each name `OS` gives by a named branch matches that branch's pattern;
      "windows" matches none of them and is kept by the fall-through. */
  lemma NamedOsesMatch()
    ensures Contains("linux", "linux") && Contains("darwin", "darwin") && Contains("freebsd", "freebsd")
    ensures Contains("netbsd", "netbsd") && Contains("openbsd", "openbsd") && Contains("solaris", "solaris")
    ensures Contains("dragonflybsd", "dragonfly")
    ensures !OsMatched("windows")
  {
    ContainsSelf("linux");
    ContainsSelf("darwin");
    ContainsSelf("freebsd");
    ContainsSelf("netbsd");
    ContainsSelf("openbsd");
    ContainsSelf("solaris");
    assert Contains("dragonflybsd", "dragonfly") by { assert MatchesFrom("dragonflybsd", "dragonfly", 0, 0); }
    WindowsUnmatched();
  }

  /** "windows" matches none of the patterns (not even `/mingw|mswin/`). */
  lemma WindowsUnmatched()
    ensures !OsMatched("windows")
  {
    assert !Contains("windows", "linux") && !Contains("windows", "darwin") && !Contains("windows", "freebsd") by {}
    assert !Contains("windows", "netbsd") && !Contains("windows", "openbsd") && !Contains("windows", "dragonfly") by {}
    assert !Contains("windows", "sunos") && !Contains("windows", "solaris") by {}
    assert !Contains("windows", "mingw") && !Contains("windows", "mswin") by {}
  }

  /** The `OS` case over the lower-cased host string `h`: the first
      matching branch names the result. */
  function OsOfLowered(h: string): (os: string)
    ensures os in KnownOses || os == h
    ensures !OsMatched(h) ==> os == h
    ensures OsMatched(h) ==> os in KnownOses
    ensures os == "linux" <==> Contains(h, "linux")
    ensures os == "darwin" <==> !Contains(h, "linux") && Contains(h, "darwin")
    ensures os == "freebsd" <==> !Contains(h, "linux") && !Contains(h, "darwin") && Contains(h, "freebsd")
    ensures os == "netbsd" <==>
              !Contains(h, "linux") && !Contains(h, "darwin") && !Contains(h, "freebsd") && Contains(h, "netbsd")
    ensures os == "openbsd" <==> (!Contains(h, "linux") && !Contains(h, "darwin") && !Contains(h, "freebsd")
                                  && !Contains(h, "netbsd") && Contains(h, "openbsd"))
    ensures os == "dragonflybsd" <==> PastOpenbsd(h) && Contains(h, "dragonfly")
    ensures os == "solaris" <==>
              PastOpenbsd(h) && !Contains(h, "dragonfly") && (Contains(h, "sunos") || Contains(h, "solaris"))
    ensures os == "windows" <==> (h == "windows" || (PastOpenbsd(h) && !Contains(h, "dragonfly")
                                  && !Contains(h, "sunos") && !Contains(h, "solaris")
                                  && (Contains(h, "mingw") || Contains(h, "mswin"))))
  {
    NamedOsesMatch();
    if Contains(h, "linux") then "linux"
    else if Contains(h, "darwin") then "darwin"
    else if Contains(h, "freebsd") then "freebsd"
    else if Contains(h, "netbsd") then "netbsd"
    else if Contains(h, "openbsd") then "openbsd"
    else if Contains(h, "dragonfly") then "dragonflybsd"
    else if Contains(h, "sunos") || Contains(h, "solaris") then "solaris"
    else if Contains(h, "mingw") || Contains(h, "mswin") then "windows"
    else h
  }

  /** `FFI::Platform::OS` for the host OS string `hostOs`. */
  function Os(hostOs: string): (os: string)
    ensures os in KnownOses || os == Lower(hostOs)
    ensures !OsMatched(Lower(hostOs)) ==> os == Lower(hostOs)
    ensures OsMatched(Lower(hostOs)) ==> os in KnownOses
    ensures var h := Lower(hostOs); os == "linux" <==> Contains(h, "linux")
    ensures var h := Lower(hostOs); os == "darwin" <==> !Contains(h, "linux") && Contains(h, "darwin")
    ensures var h := Lower(hostOs);
            os == "freebsd" <==> !Contains(h, "linux") && !Contains(h, "darwin") && Contains(h, "freebsd")
    ensures var h := Lower(hostOs);
            os == "netbsd" <==>
              !Contains(h, "linux") && !Contains(h, "darwin") && !Contains(h, "freebsd") && Contains(h, "netbsd")
    ensures var h := Lower(hostOs); os == "openbsd" <==> (!Contains(h, "linux") && !Contains(h, "darwin")
                                  && !Contains(h, "freebsd") && !Contains(h, "netbsd") && Contains(h, "openbsd"))
    ensures var h := Lower(hostOs); os == "dragonflybsd" <==> PastOpenbsd(h) && Contains(h, "dragonfly")
    ensures var h := Lower(hostOs);
            os == "solaris" <==>
              PastOpenbsd(h) && !Contains(h, "dragonfly") && (Contains(h, "sunos") || Contains(h, "solaris"))
    ensures var h := Lower(hostOs); os == "windows" <==> (h == "windows" || (PastOpenbsd(h)
                                  && !Contains(h, "dragonfly") && !Contains(h, "sunos") && !Contains(h, "solaris")
                                  && (Contains(h, "mingw") || Contains(h, "mswin"))))
  {
    OsOfLowered(Lower(hostOs))
  }

  /** `FFI::Platform::LIBPREFIX` for the OS value `os`. */
  function LibPrefix(os: string): (prefix: string)
    ensures prefix in {"", "cyg", "lib"}
    ensures prefix == "" <==> Contains(os, "windows") || Contains(os, "msys")
    ensures prefix == "cyg" <==> !Contains(os, "windows") && !Contains(os, "msys") && Contains(os, "cygwin")
  {
    if Contains(os, "windows") || Contains(os, "msys") then ""
    else if Contains(os, "cygwin") then "cyg"
    else "lib"
  }

  /** `FFI::Platform::LIBSUFFIX` for the OS value `os`. */
  function LibSuffix(os: string): (suffix: string)
    ensures suffix in {"dylib", "dll", "so"}
    ensures suffix == "dylib" <==> Contains(os, "darwin")
    ensures suffix == "dll" <==>
              !Contains(os, "darwin") && (Contains(os, "windows") || Contains(os, "cygwin") || Contains(os, "msys"))
  {
    if Contains(os, "darwin") then "dylib"
    else if Contains(os, "windows") || Contains(os, "cygwin") || Contains(os, "msys") then "dll"
    else "so"
  }

  /** `FFI::Platform::PASS_THROUGH`: the stub always declares itself, so a
      caller can tell it from the real FFI platform module. */
  function PassThrough(): (declared: bool)
    ensures declared
  {
    true
  }

  /* Each value the `ARCH` case names is classified as itself. */

  lemma ClassifiesX86_64(os: string)
    ensures ArchOfLowered("x86_64", os) == "x86_64"
  {
    assert IsAmd64("x86_64") by { assert Contains("x86_64", "x86_64"); }
  }

  lemma ClassifiesI386(os: string)
    ensures ArchOfLowered("i386", os) == "i386"
  {
    assert !IsAmd64("i386") by {}
    assert IsI386("i386") by { assert ContainsIDigit86("i386"); }
  }

  lemma ClassifiesPowerpc64(os: string)
    ensures ArchOfLowered("powerpc64", os) == "powerpc64"
  {
    assert !IsAmd64("powerpc64") && !IsI386("powerpc64") by {}
    assert IsPpc64("powerpc64") by { assert Contains("powerpc64", "powerpc64"); }
  }

  lemma ClassifiesPowerpc(os: string)
    ensures ArchOfLowered("powerpc", os) == "powerpc"
  {
    assert !IsAmd64("powerpc") && !IsI386("powerpc") && !IsPpc64("powerpc") by {}
    assert IsPpc("powerpc") by { assert Contains("powerpc", "powerpc"); }
  }

  lemma ClassifiesSparcv9(os: string)
    ensures ArchOfLowered("sparcv9", os) == "sparcv9"
  {
    assert !IsAmd64("sparcv9") && !IsI386("sparcv9") && !IsPpc64("sparcv9") && !IsPpc("sparcv9") by {}
    assert IsSparc("sparcv9") by { assert Contains("sparcv9", "sparcv9"); }
  }

  lemma ClassifiesAarch64(os: string)
    ensures ArchOfLowered("aarch64", os) == "aarch64"
  {
    assert !IsAmd64("aarch64") && !IsI386("aarch64") && !IsPpc64("aarch64") && !IsPpc("aarch64") by {}
    assert !IsSparc("aarch64") by {}
    assert IsArm64("aarch64") by { assert Contains("aarch64", "aarch64"); }
  }

  /** A bare "arm" takes the `/^arm/` branch, whose result depends on `OS`. */
  lemma ClassifiesArm(os: string)
    ensures ArchOfLowered("arm", os) == if os == "darwin" then "aarch64" else "arm"
  {
    assert !IsAmd64("arm") && !IsI386("arm") && !IsPpc64("arm") && !IsPpc("arm") by {}
    assert !IsSparc("arm") && !IsArm64("arm") by {}
    assert LineStartsWithArm("arm") by { assert StartsWith("arm", "arm"); }
  }

  /** Every value `ARCH` names classifies as itself, except "arm" when the
      OS is "darwin" (where "arm" never comes out). */
  lemma ArchFixesKnown(arch: string, os: string)
    requires arch in KnownArchs && (arch != "arm" || os != "darwin")
    ensures Arch(arch, os) == arch
  {
    LowerOfLower(arch);
    if arch == "x86_64" {
      ClassifiesX86_64(os);
    } else if arch == "i386" {
      ClassifiesI386(os);
    } else if arch == "powerpc64" {
      ClassifiesPowerpc64(os);
    } else if arch == "powerpc" {
      ClassifiesPowerpc(os);
    } else if arch == "sparcv9" {
      ClassifiesSparcv9(os);
    } else if arch == "aarch64" {
      ClassifiesAarch64(os);
    } else {
      ClassifiesArm(os);
    }
  }

  /** First match decides: "x86_64" also contains "x86" (the i386 branch)
      but takes the earlier amd64 branch. */
  lemma ArchFirstMatchX86_64(os: string)
    ensures Arch("x86_64", os) == "x86_64"
    ensures IsI386("x86_64")
  {
    LowerOfLower("x86_64");
    ClassifiesX86_64(os);
    assert Contains("x86_64", "x86") by { assert MatchesFrom("x86_64", "x86", 0, 0); }
  }

  /** First match decides: "ppc64le" also contains "ppc" (the powerpc
      branch) but takes the earlier powerpc64 branch. */
  lemma ArchFirstMatchPpc64le(os: string)
    ensures Arch("ppc64le", os) == "powerpc64"
    ensures IsPpc("ppc64le")
  {
    LowerOfLower("ppc64le");
    assert !IsAmd64("ppc64le") && !IsI386("ppc64le") by {}
    assert IsPpc64("ppc64le") by { assert Contains("ppc64le", "ppc64"); }
    assert Contains("ppc64le", "ppc") by { assert MatchesFrom("ppc64le", "ppc", 0, 0); }
  }

  /** First match decides: "arm64" also starts with "arm" but takes the
      earlier aarch64 branch, whatever the OS. */
  lemma ArchFirstMatchArm64(os: string)
    ensures Arch("arm64", os) == "aarch64"
    ensures LineStartsWithArm("arm64")
  {
    LowerOfLower("arm64");
    assert !IsAmd64("arm64") && !IsI386("arm64") && !IsPpc64("arm64") && !IsPpc("arm64") by {}
    assert !IsSparc("arm64") by {}
    assert IsArm64("arm64") by { assert Contains("arm64", "arm64"); }
    assert StartsWith("arm64", "arm");
  }

  /** The CPU "armv7l" takes the `/^arm/` branch: "aarch64" on darwin and
      "arm" elsewhere. */
  lemma ArchArmv7l(os: string)
    ensures Arch("armv7l", os) == if os == "darwin" then "aarch64" else "arm"
  {
    LowerOfLower("armv7l");
    assert !IsAmd64("armv7l") && !IsI386("armv7l") && !IsPpc64("armv7l") && !IsPpc("armv7l") by {}
    assert !IsSparc("armv7l") && !IsArm64("armv7l") by {}
    assert LineStartsWithArm("armv7l") by { assert StartsWith("armv7l", "arm"); }
  }

  /** An unknown CPU comes back lower-cased. */
  lemma ArchUnknownLowered(os: string)
    ensures Arch("RiscV64", os) == "riscv64"
  {
    var l := Lower("RiscV64");
    assert l[0] == 'r' && l[1] == 'i' && l[2] == 's' && l[3] == 'c' && l[4] == 'v' && l[5] == '6' && l[6] == '4';
    assert l == "riscv64";
    assert !IsAmd64("riscv64") && !IsI386("riscv64") && !IsPpc64("riscv64") && !IsPpc("riscv64") by {}
    assert !IsSparc("riscv64") && !IsArm64("riscv64") by {}
    assert !LineStartsWithArm("riscv64") by {
      assert forall k :: 0 <= k < |"riscv64"| ==> "riscv64"[k] != '\n';
    }
  }

  /* Each value the `OS` case names is classified as itself. */

  lemma ClassifiesLinux()
    ensures OsOfLowered("linux") == "linux"
  {
    assert Contains("linux", "linux") by { assert MatchesFrom("linux", "linux", 0, 0); }
  }

  lemma ClassifiesDarwin()
    ensures OsOfLowered("darwin") == "darwin"
  {
    assert !Contains("darwin", "linux") by {}
    assert Contains("darwin", "darwin") by { assert MatchesFrom("darwin", "darwin", 0, 0); }
  }

  lemma ClassifiesFreebsd()
    ensures OsOfLowered("freebsd") == "freebsd"
  {
    assert !Contains("freebsd", "linux") && !Contains("freebsd", "darwin") by {}
    assert Contains("freebsd", "freebsd") by { assert MatchesFrom("freebsd", "freebsd", 0, 0); }
  }

  lemma ClassifiesNetbsd()
    ensures OsOfLowered("netbsd") == "netbsd"
  {
    assert !Contains("netbsd", "linux") && !Contains("netbsd", "darwin") && !Contains("netbsd", "freebsd") by {}
    assert Contains("netbsd", "netbsd") by { assert MatchesFrom("netbsd", "netbsd", 0, 0); }
  }

  lemma ClassifiesOpenbsd()
    ensures OsOfLowered("openbsd") == "openbsd"
  {
    assert !Contains("openbsd", "linux") && !Contains("openbsd", "darwin") && !Contains("openbsd", "freebsd") by {}
    assert !Contains("openbsd", "netbsd") by {}
    assert Contains("openbsd", "openbsd") by { assert MatchesFrom("openbsd", "openbsd", 0, 0); }
  }

  lemma ClassifiesDragonflybsd()
    ensures OsOfLowered("dragonflybsd") == "dragonflybsd"
  {
    assert !Contains("dragonflybsd", "linux") && !Contains("dragonflybsd", "darwin") by {}
    assert !Contains("dragonflybsd", "freebsd") && !Contains("dragonflybsd", "netbsd") by {}
    assert !Contains("dragonflybsd", "openbsd") by {}
    assert Contains("dragonflybsd", "dragonfly") by { assert MatchesFrom("dragonflybsd", "dragonfly", 0, 0); }
  }

  lemma ClassifiesSolaris()
    ensures OsOfLowered("solaris") == "solaris"
  {
    assert !Contains("solaris", "linux") && !Contains("solaris", "darwin") && !Contains("solaris", "freebsd") by {}
    assert !Contains("solaris", "netbsd") && !Contains("solaris", "openbsd") && !Contains("solaris", "dragonfly") by {}
    assert !Contains("solaris", "sunos") by {}
    assert Contains("solaris", "solaris") by { assert MatchesFrom("solaris", "solaris", 0, 0); }
  }

  /** "windows" matches none of the patterns (not even `/mingw|mswin/`): it
      is kept by the fall-through branch. */
  lemma ClassifiesWindows()
    ensures !OsMatched("windows")
    ensures OsOfLowered("windows") == "windows"
  {
    WindowsUnmatched();
  }

  /** Every value `OS` names classifies as itself. */
  lemma OsFixesKnown(os: string)
    requires os in KnownOses
    ensures Os(os) == os
  {
    LowerOfLower(os);
    if os == "linux" {
      ClassifiesLinux();
    } else if os == "darwin" {
      ClassifiesDarwin();
    } else if os == "freebsd" {
      ClassifiesFreebsd();
    } else if os == "netbsd" {
      ClassifiesNetbsd();
    } else if os == "openbsd" {
      ClassifiesOpenbsd();
    } else if os == "dragonflybsd" {
      ClassifiesDragonflybsd();
    } else if os == "solaris" {
      ClassifiesSolaris();
    } else {
      ClassifiesWindows();
    }
  }

  /** Host OS names as Ruby reports them: "linux-gnu" is linux and "mingw32"
      is windows. */
  lemma OsHostExamples()
    ensures Os("linux-gnu") == "linux" && Os("mingw32") == "windows"
  {
    LowerOfLower("linux-gnu");
    assert Contains("linux-gnu", "linux") by { assert MatchesFrom("linux-gnu", "linux", 0, 0); }
    LowerOfLower("mingw32");
    assert !Contains("mingw32", "linux") && !Contains("mingw32", "darwin") && !Contains("mingw32", "freebsd") by {}
    assert !Contains("mingw32", "netbsd") && !Contains("mingw32", "openbsd") && !Contains("mingw32", "dragonfly") by {}
    assert !Contains("mingw32", "sunos") && !Contains("mingw32", "solaris") by {}
    assert Contains("mingw32", "mingw") by { assert MatchesFrom("mingw32", "mingw", 0, 0); }
  }

  /** "cygwin" is not one of the named OS branches and stays as it is; its
      libraries are named "cyg<name>.dll". */
  lemma CygwinNaming()
    ensures Os("cygwin") == "cygwin"
    ensures LibPrefix("cygwin") == "cyg" && LibSuffix("cygwin") == "dll"
  {
    LowerOfLower("cygwin");
    assert !Contains("cygwin", "linux") && !Contains("cygwin", "darwin") && !Contains("cygwin", "freebsd") by {}
    assert !Contains("cygwin", "netbsd") && !Contains("cygwin", "openbsd") && !Contains("cygwin", "dragonfly") by {}
    assert !Contains("cygwin", "sunos") && !Contains("cygwin", "solaris") by {}
    assert !Contains("cygwin", "mingw") && !Contains("cygwin", "mswin") by {}
    assert Contains("cygwin", "cygwin") by { assert MatchesFrom("cygwin", "cygwin", 0, 0); }
    assert !Contains("cygwin", "windows") && !Contains("cygwin", "msys") by {}
  }

  /** Library naming for the common OS values: "<name>.dll" on windows,
      "lib<name>.dylib" on darwin, "lib<name>.so" on linux. */
  lemma LibNamingExamples()
    ensures LibPrefix("windows") == "" && LibSuffix("windows") == "dll"
    ensures LibPrefix("darwin") == "lib" && LibSuffix("darwin") == "dylib"
    ensures LibPrefix("linux") == "lib" && LibSuffix("linux") == "so"
  {
    assert Contains("windows", "windows") by { assert MatchesFrom("windows", "windows", 0, 0); }
    assert !Contains("windows", "darwin") by {}
    assert Contains("darwin", "darwin") by { assert MatchesFrom("darwin", "darwin", 0, 0); }
    assert !Contains("darwin", "windows") && !Contains("darwin", "msys") && !Contains("darwin", "cygwin") by {}
    assert !Contains("linux", "windows") && !Contains("linux", "msys") && !Contains("linux", "cygwin") by {}
    assert !Contains("linux", "darwin") by {}
  }

  /** `ARCH` is a normal form: classifying its own result again changes
      nothing. */
  lemma ArchIdempotent(hostCpu: string, os: string)
    ensures Arch(Arch(hostCpu, os), os) == Arch(hostCpu, os)
  {
    var arch := Arch(hostCpu, os);
    if ArchMatched(Lower(hostCpu)) {
      ArchFixesKnown(arch, os);
    } else {
      LowerOfLower(Lower(hostCpu));
    }
  }

  /** `OS` is a normal form: classifying its own result again changes
      nothing. */
  lemma OsIdempotent(hostOs: string)
    ensures Os(Os(hostOs)) == Os(hostOs)
  {
    if OsMatched(Lower(hostOs)) {
      OsFixesKnown(Os(hostOs));
    } else {
      LowerOfLower(Lower(hostOs));
    }
  }

  /** For every host, the library prefix is dropped or shortened exactly
      when the suffix is "dll": `LIBPREFIX` and `LIBSUFFIX` agree on the
      DLL naming scheme. */
  lemma DllNamingAgrees(hostOs: string)
    ensures LibPrefix(Os(hostOs)) != "lib" <==> LibSuffix(Os(hostOs)) == "dll"
  {
  }
}

=== FILE: memfs.dfy ===
/**
  Extraction of files out of the packaged read-only filesystem (the memfs)
  into a writable cache directory, and the path rewriting that hands the
  extracted copy to the caller (`TebakoRuntime.extract` and
  `TebakoRuntime.extract_memfs`).

  The memfs mount prefix (`COMPILER_MEMFS`) and the cache directory
  (`COMPILER_MEMFS_LIB_CACHE`, or an explicit `cache_path`) are parameters.
 */
module Memfs {
  import opened Strings
  import opened Paths

  const PosixMemfs: Path := "/__tebako_memfs__"
  const WindowsMemfs: Path := "A:/__tebako_memfs__"

  /** `COMPILER_MEMFS`: the drive-rooted mount on msys, mingw and cygwin
      builds, the root-rooted one everywhere else. */
  function CompilerMemfs(rubyPlatform: string): (prefix: Path)
    ensures prefix in {PosixMemfs, WindowsMemfs}
    ensures prefix == WindowsMemfs <==>
              Contains(rubyPlatform, "msys") || Contains(rubyPlatform, "mingw") || Contains(rubyPlatform, "cygwin")
  {
    if Contains(rubyPlatform, "msys") || Contains(rubyPlatform, "mingw") || Contains(rubyPlatform, "cygwin")
    then WindowsMemfs
    else PosixMemfs
  }

  /** Platform strings as Ruby reports them: a mingw build gets the
      drive-rooted mount, a Linux build the root-rooted one. */
  lemma CompilerMemfsExamples()
    ensures CompilerMemfs("x64-mingw-ucrt") == WindowsMemfs
    ensures CompilerMemfs("x86_64-linux") == PosixMemfs
  {
    assert Contains("x64-mingw-ucrt", "mingw") by { assert MatchesFrom("x64-mingw-ucrt", "mingw", 4, 0); }
    assert !Contains("x86_64-linux", "msys") by {}
    assert !Contains("x86_64-linux", "mingw") by {}
    assert !Contains("x86_64-linux", "cygwin") by {}
  }

  /** One `FileUtils.cp_r(sources, dest)` call. */
  datatype CopyCall = CopyCall(sources: set<Path>, dest: Path)

  /** What `extract_memfs` leaves behind: the filesystem afterwards, the
      string handed back, and the copy it performed, if any. */
  datatype Extraction = Extraction(fs: FileSys, path: string, copied: Option<CopyCall>)

  /** A directory entry name matched by the glob pattern `*<ext>`: `*` does
      not match a leading dot. */
  predicate GlobName(name: Path, ext: Path) {
    |name| > 0 && name[0] != '.' && EndsWith(name, ext)
  }

  /** `Dir.glob` with the pattern `<dir>` + "/" + "*<ext>" over the abstract filesystem. */
  function Glob(fs: FileSys, dir: Path, ext: Path): (found: set<Path>)
    ensures found <= fs.paths
    ensures forall q :: q in found ==> Dirname(q) == dir && GlobName(Basename(q), ext)
  {
    set q | q in fs.paths && Dirname(q) == dir && GlobName(Basename(q), ext)
  }

  /** The files `extract` hands to `cp_r`: the file alone, or with `wild`
      every entry of its directory that shares its extension. */
  function Sources(fs: FileSys, file: Path, wild: bool): (sources: set<Path>)
    ensures !wild ==> sources == {file}
    ensures wild ==> sources <= fs.paths
    ensures wild ==> forall q :: q in sources ==> Dirname(q) == Dirname(file) && GlobName(Basename(q), Extname(file))
    ensures wild ==> forall q :: q in fs.paths && Dirname(q) == Dirname(file) && GlobName(Basename(q), Extname(file)) ==>
                       q in sources
  {
    if wild then Glob(fs, Dirname(file), Extname(file)) else {file}
  }

  /** `TebakoRuntime.extract(file, wild, extract_path)`. */
  function Extract(fs: FileSys, file: Path, wild: bool, dest: Path): (r: (FileSys, CopyCall))
    ensures r.1.dest == dest
    ensures r.1.sources == Sources(fs, file, wild)
    ensures fs.paths <= r.0.paths
    ensures forall s :: s in r.1.sources ==> TreeCopy(fs, s, Join(dest, Basename(s))) <= r.0.paths
    ensures forall s :: s in r.1.sources && s in fs.paths ==> Join(dest, Basename(s)) in r.0.paths
    ensures forall q :: q in r.0.paths && q !in fs.paths ==>
              exists s :: s in r.1.sources && q in TreeCopy(fs, s, Join(dest, Basename(s)))
  {
    var sources := Sources(fs, file, wild);
    (CopyInto(fs, sources, dest), CopyCall(sources, dest))
  }

  /** A wild extraction copies the file itself exactly when it exists and
      its name is visible to the glob (non-empty, no leading dot). */
  lemma WildSourcesIncludeFile(fs: FileSys, file: Path)
    ensures file in Sources(fs, file, true) <==>
              file in fs.paths && |Basename(file)| > 0 && Basename(file)[0] != '.'
  {
    var ext, name := Extname(file), Basename(file);
    var sources := Sources(fs, file, true);
    assert EndsWith(name, ext);
    if file in sources {
      assert GlobName(name, ext);
    }
    if file in fs.paths && |name| > 0 && name[0] != '.' {
      assert GlobName(name, ext);
      assert file in sources;
    }
  }

  /** The path `extract_memfs` considers extractable. */
  function IsMemfsFile(fs: FileSys, prefix: Path, p: Path): (memfs: bool)
    ensures memfs <==> p in fs.paths && |prefix| <= |p| && p == prefix + p[|prefix|..]
  {
    p in fs.paths && StartsWith(p, prefix)
  }

  /** Where `extract_memfs` puts (or finds) the copy of `file`. */
  function CacheTarget(cache: Path, file: Path): (t: Path)
    ensures StartsWith(t, cache)
    ensures EndsWith(t, Basename(file))
    ensures |cache| > 0 && cache[|cache| - 1] == Slash ==> |t| == |cache| + |Basename(file)|
    ensures (|cache| == 0 || cache[|cache| - 1] != Slash) ==>
              |t| == |cache| + 1 + |Basename(file)| && t[|cache|] == Slash
  {
    Join(cache, Basename(file))
  }

  /** With a cache directory written without a trailing slash, the target
      splits back into the cache directory and the file's basename. */
  lemma CacheTargetSplits(cache: Path, file: Path)
    requires |cache| > 0 && cache[|cache| - 1] != Slash
    requires Basename(file) != []
    ensures Dirname(CacheTarget(cache, file)) == cache
    ensures Basename(CacheTarget(cache, file)) == Basename(file)
  {
    JoinSplits(cache, Basename(file));
  }

  /** Re-applies the quoting of the original argument to a result path. */
  function Requote(wasQuoted: bool, p: string): (r: string)
    ensures wasQuoted ==> IsQuoted(r) && Unquote(r) == p
    ensures !wasQuoted ==> r == p
  {
    if wasQuoted then (UnquoteQuote(p); Quote(p)) else p
  }

  /** The cache side of `extract_memfs` for an unquoted memfs file `f`:
      extract unless the target is already there. */
  function ExtractOnce(fs: FileSys, f: Path, wild: bool, cache: Path): (r: (FileSys, Option<CopyCall>))
    ensures r.1.Some? <==> CacheTarget(cache, f) !in fs.paths
    ensures r.1.Some? ==> r.1.value == CopyCall(Sources(fs, f, wild), cache)
    ensures r.1.None? ==> r.0 == fs
    ensures r.1.Some? ==> r.0 == CopyInto(fs, r.1.value.sources, cache)
    ensures fs.paths <= r.0.paths
    ensures f in Sources(fs, f, wild) && f in fs.paths ==> CacheTarget(cache, f) in r.0.paths
  {
    if Join(cache, Basename(f)) in fs.paths then (fs, None)
    else
      var e := Extract(fs, f, wild, cache);
      (e.0, Some(e.1))
  }

  /** `TebakoRuntime.extract_memfs(file, wild:, cache_path:)` with the mount
      prefix `prefix`. */
  function ExtractMemfs(fs: FileSys, file: string, wild: bool, cache: Path, prefix: Path): (r: Extraction)
    // not a memfs file: the argument comes back byte for byte, nothing is copied
    ensures !IsMemfsFile(fs, prefix, Unquoted(file)) ==> r == Extraction(fs, file, None)
    // a memfs file: the cache path, quoted exactly when the argument was
    ensures IsMemfsFile(fs, prefix, Unquoted(file)) && IsQuoted(file) ==>
              IsQuoted(r.path) && Unquote(r.path) == CacheTarget(cache, Unquoted(file))
    ensures IsMemfsFile(fs, prefix, Unquoted(file)) && !IsQuoted(file) ==>
              r.path == CacheTarget(cache, file)
    // a copy happens exactly when the target is not there yet, and goes to the cache
    ensures r.copied.Some? <==>
              IsMemfsFile(fs, prefix, Unquoted(file)) && CacheTarget(cache, Unquoted(file)) !in fs.paths
    ensures r.copied.Some? ==>
              r.copied.value.dest == cache && r.copied.value.sources == Sources(fs, Unquoted(file), wild)
    ensures r.copied.None? ==> r.fs == fs
    ensures r.copied.Some? ==> r.fs == CopyInto(fs, r.copied.value.sources, cache)
    ensures fs.paths <= r.fs.paths
  {
    var quoted := IsQuoted(file);
    var f := if quoted then Unquote(file) else file;
    assert f == Unquoted(file);
    if !(f in fs.paths && StartsWith(f, prefix)) then
      Extraction(fs, Requote(quoted, f), None)
    else
      var target := Join(cache, Basename(f));
      var e := ExtractOnce(fs, f, wild, cache);
      Extraction(e.0, Requote(quoted, target), e.1)
  }

  /** The extraction would leave the file's own copy at the target: true for
      a plain extraction, and for a wild one when the glob sees the file. */
  predicate CopiesItself(file: Path, wild: bool) {
    !wild || (|Basename(file)| > 0 && Basename(file)[0] != '.')
  }

  /** After `extract_memfs` rewrites a path whose extraction copies the
      file itself, the rewritten path exists. */
  lemma ExtractedPathExists(fs: FileSys, file: string, wild: bool, cache: Path, prefix: Path)
    requires IsMemfsFile(fs, prefix, Unquoted(file))
    requires CopiesItself(Unquoted(file), wild)
    ensures CacheTarget(cache, Unquoted(file)) in ExtractMemfs(fs, file, wild, cache, prefix).fs.paths
  {
    var f := Unquoted(file);
    if wild {
      WildSourcesIncludeFile(fs, f);
    }
  }

  /** A second identical call copies nothing, leaves the filesystem alone
      and returns the same string. */
  lemma ExtractMemfsIdempotent(fs: FileSys, file: string, wild: bool, cache: Path, prefix: Path)
    requires CopiesItself(Unquoted(file), wild)
    ensures var r1 := ExtractMemfs(fs, file, wild, cache, prefix);
            var r2 := ExtractMemfs(r1.fs, file, wild, cache, prefix);
            r2.copied.None? && r2.fs == r1.fs && r2.path == r1.path
  {
    var r1 := ExtractMemfs(fs, file, wild, cache, prefix);
    var f := Unquoted(file);
    if IsMemfsFile(fs, prefix, f) {
      ExtractedPathExists(fs, file, wild, cache, prefix);
      assert IsMemfsFile(r1.fs, prefix, f);
    }
  }

  /** The dedup key is the cache target, not the source: once one memfs
      file has been extracted, another memfs file with the same basename is
      not copied and is redirected to the first one's copy. */
  lemma SameBasenameNotCopied(fs: FileSys, f: Path, g: Path, wild: bool, cache: Path, prefix: Path)
    requires !IsQuoted(f) && !IsQuoted(g)
    requires IsMemfsFile(fs, prefix, f) && IsMemfsFile(fs, prefix, g)
    requires Basename(f) == Basename(g)
    requires CopiesItself(f, wild)
    ensures var r1 := ExtractMemfs(fs, f, wild, cache, prefix);
            var r2 := ExtractMemfs(r1.fs, g, wild, cache, prefix);
            r2.copied.None? && r2.path == r1.path
  {
    ExtractedPathExists(fs, f, wild, cache, prefix);
  }

  /** With `wild`, a memfs file whose name starts with a dot is not matched
      by its own glob: when nothing else is there to share its extension the
      copy is empty and the returned cache path does not exist. */
  lemma WildDotFileNotExtracted(fs: FileSys, file: Path, cache: Path, prefix: Path)
    requires fs.paths == {file} && IsMemfsFile(fs, prefix, file) && !IsQuoted(file)
    requires |Basename(file)| > 0 && Basename(file)[0] == '.'
    requires CacheTarget(cache, file) != file
    ensures var r := ExtractMemfs(fs, file, true, cache, prefix);
            r.copied.Some? && r.path == CacheTarget(cache, file) && r.path !in r.fs.paths
  {
    WildSourcesIncludeFile(fs, file);
    assert Sources(fs, file, true) == {};
  }
}

=== FILE: paths.dfy ===
/**
  POSIX path helpers (`File.basename`, `File.dirname`, `File.extname`,
  `File.join`) and an abstract filesystem: the set of path strings that
  currently exist. Copying a tree (`FileUtils.cp_r`) only ever adds paths.
 */
module Paths {
  import opened Strings

  type Path = string

  const Slash: char := '/'

  /** The paths that exist; `File.exist?(p)` is `p in fs.paths`. */
  datatype FileSys = FileSys(paths: set<Path>)

  /** The last component of `p`: everything after its last slash. */
  function Basename(p: Path): (b: Path)
    ensures Slash !in b
    ensures EndsWith(p, b)
    ensures |b| < |p| ==> p[|p| - |b| - 1] == Slash
    decreases |p|
  {
    if |p| == 0 then ""
    else if p[|p| - 1] == Slash then ""
    else
      var b := Basename(p[..|p| - 1]);
      assert p[..|p| - 1][|p| - 1 - |b|..] == b;
      b + [p[|p| - 1]]
  }

  /** Everything before the last slash: "." without a slash, "/" for a
      component directly under the root. */
  function Dirname(p: Path): (d: Path)
    // no slash: the current directory
    ensures Slash !in p ==> d == "."
    // otherwise `p` is the directory, one slash and the basename (or the root
    // and the basename)
    ensures Slash in p ==>
              (d == [Slash] && p == [Slash] + Basename(p)) || (|d| > 0 && p == d + [Slash] + Basename(p))
  {
    var b := Basename(p);
    if |b| == |p| then
      assert p[|p| - |b|..] == p;
      "."
    else
      assert p == p[..|p| - |b| - 1] + [Slash] + b;
      if |p| - |b| - 1 == 0 then [Slash]
      else p[..|p| - |b| - 1]
  }

  /** The extension of `p`'s last component, leading dot included; leading
      dots of the component do not start an extension, and a trailing dot
      is an extension of its own (`"a."` has `"."`). */
  function Extname(p: Path): (e: Path)
    ensures EndsWith(Basename(p), e)
    // the extension lies after the leading dots and starts at the last dot
    // there; it is empty exactly when there is no such dot
    ensures var b := Basename(p); EndsWith(b[LeadingDots(b)..], e)
    ensures var b := Basename(p); e == [] <==> '.' !in b[LeadingDots(b)..]
    ensures e != [] ==> e[0] == '.' && '.' !in e[1..]
  {
    var b := Basename(p);
    var rest := b[LeadingDots(b)..];
    var e := LastDotSuffix(rest);
    assert EndsWith(b, rest) by { assert b[|b| - |rest|..] == rest; }
    EndsWithTrans(b, rest, e);
    e
  }

  lemma EndsWithTrans(a: string, b: string, c: string)
    requires EndsWith(a, b) && EndsWith(b, c)
    ensures EndsWith(a, c)
  {
    assert a[|a| - |c|..] == a[|a| - |b|..][|b| - |c|..];
  }

  /** The number of dots `s` starts with. */
  function LeadingDots(s: string): (n: nat)
    ensures n <= |s|
    ensures forall i :: 0 <= i < n ==> s[i] == '.'
    ensures n < |s| ==> s[n] != '.'
    decreases |s|
  {
    if |s| > 0 && s[0] == '.' then 1 + LeadingDots(s[1..]) else 0
  }

  /** The suffix of `s` starting at its last dot, or "" without a dot. */
  function LastDotSuffix(s: string): (e: string)
    ensures EndsWith(s, e)
    ensures e == [] <==> '.' !in s
    ensures e != [] ==> e[0] == '.' && '.' !in e[1..]
    decreases |s|
  {
    if |s| == 0 then ""
    else if s[|s| - 1] == '.' then "."
    else
      var init := s[..|s| - 1];
      assert s == init + [s[|s| - 1]];
      var e := LastDotSuffix(init);
      if e == [] then []
      else
        assert init[|init| - |e|..] == e;
        assert (e + [s[|s| - 1]])[1..] == e[1..] + [s[|s| - 1]];
        e + [s[|s| - 1]]
  }

  /** `File.join(dir, name)` (and `Pathname#+`) for a single relative
      component: exactly one slash between the two. */
  function Join(dir: Path, name: Path): (r: Path)
    ensures StartsWith(r, dir)
    ensures EndsWith(r, name)
    ensures |r| == |dir| + |name| || (|r| == |dir| + 1 + |name| && r[|dir|] == Slash)
    // a directory that already ends in a slash gets no second one
    ensures |dir| > 0 && dir[|dir| - 1] == Slash ==> |r| == |dir| + |name|
    ensures (|dir| == 0 || dir[|dir| - 1] != Slash) ==> |r| == |dir| + 1 + |name| && r[|dir|] == Slash
  {
    if |dir| > 0 && dir[|dir| - 1] == Slash then dir + name
    else
      assert (dir + [Slash] + name)[..|dir|] == dir;
      dir + [Slash] + name
  }

  /** The basename of a path that ends in a slash and a slash-free name is
      that name. */
  lemma {:induction false} BasenameAfterSlash(d: Path, n: Path)
    requires Slash !in n
    ensures Basename(d + [Slash] + n) == n
    decreases |n|
  {
    var p := d + [Slash] + n;
    if |n| > 0 {
      var m := n[..|n| - 1];
      assert p[..|p| - 1] == d + [Slash] + m;
      assert Slash !in m by {
        assert forall i :: 0 <= i < |m| ==> m[i] == n[i];
      }
      BasenameAfterSlash(d, m);
      assert p[|p| - 1] == n[|n| - 1];
      assert m + [n[|n| - 1]] == n;
    }
  }

  /** `Join` is undone by `Basename` and `Dirname`: a non-empty slash-free
      name joined to a directory without a trailing slash comes back apart
      into the same directory and name. */
  lemma JoinSplits(dir: Path, name: Path)
    requires Slash !in name && name != []
    requires |dir| > 0 && dir[|dir| - 1] != Slash
    ensures Basename(Join(dir, name)) == name
    ensures Dirname(Join(dir, name)) == dir
  {
    BasenameAfterSlash(dir, name);
    var p := Join(dir, name);
    assert p == dir + [Slash] + name;
    assert Slash in p by { assert p[|dir|] == Slash; }
    assert p[..|p| - |name| - 1] == dir;
  }

  /** `p` lies strictly inside the directory `dir`. */
  predicate Below(p: Path, dir: Path) {
    var d := Join(dir, "");
    StartsWith(p, d) && |p| > |d|
  }

  /** The part of `p` after `dir` and its separating slash. */
  function Rel(p: Path, dir: Path): Path
    requires Below(p, dir)
  {
    p[|Join(dir, "")|..]
  }

  /** The copy of `p` when the tree rooted at `src` is copied to `dst`. */
  function Relocate(p: Path, src: Path, dst: Path): Path
    requires p == src || Below(p, src)
  {
    if p == src then dst else Join(dst, Rel(p, src))
  }

  /** The paths that copying the tree rooted at `src` to `dst` creates. A
      source that does not exist contributes nothing. */
  function TreeCopy(fs: FileSys, src: Path, dst: Path): (created: set<Path>)
    // the whole tree is copied: the root and everything below it
    ensures forall p :: p in fs.paths && (p == src || Below(p, src)) ==> Relocate(p, src, dst) in created
    ensures src in fs.paths ==> dst in created
    // and nothing else
    ensures forall q :: q in created ==> exists p :: p in fs.paths && (p == src || Below(p, src)) && q == Relocate(p, src, dst)
  {
    set p | p in fs.paths && (p == src || Below(p, src)) :: Relocate(p, src, dst)
  }

  /** What `cp_r` of `sources` into `dest` adds: each source tree, placed at
      `dest/basename(source)`. */
  function CopiedTrees(fs: FileSys, sources: set<Path>, dest: Path): set<Path> {
    set s, q | s in sources && q in TreeCopy(fs, s, Join(dest, Basename(s))) :: q
  }

  lemma CopiedTreesCover(fs: FileSys, sources: set<Path>, dest: Path)
    ensures forall s :: s in sources ==> TreeCopy(fs, s, Join(dest, Basename(s))) <= CopiedTrees(fs, sources, dest)
  {
  }

  lemma CopiedTreesOnly(fs: FileSys, sources: set<Path>, dest: Path)
    ensures forall q :: q in CopiedTrees(fs, sources, dest) ==>
              exists s :: s in sources && q in TreeCopy(fs, s, Join(dest, Basename(s)))
  {
  }

  /** `FileUtils.cp_r(sources, dest)` with `sources` an array: each source
      tree lands at `dest/basename(source)`. */
  function CopyInto(fs: FileSys, sources: set<Path>, dest: Path): (fs': FileSys)
    ensures fs.paths <= fs'.paths
    ensures sources == {} ==> fs' == fs
    // every source tree is copied whole
    ensures forall s :: s in sources ==> TreeCopy(fs, s, Join(dest, Basename(s))) <= fs'.paths
    ensures forall s :: s in sources && s in fs.paths ==> Join(dest, Basename(s)) in fs'.paths
    // and nothing else is added
    ensures forall q :: q in fs'.paths && q !in fs.paths ==>
              exists s :: s in sources && q in TreeCopy(fs, s, Join(dest, Basename(s)))
  {
    CopiedTreesCover(fs, sources, dest);
    CopiedTreesOnly(fs, sources, dest);
    FileSys(fs.paths + CopiedTrees(fs, sources, dest))
  }
}

=== FILE: sassc.dfy ===
/**
  The SassC adapter: include paths inside the memfs are rewritten to the
  cache directory, and each rewritten directory is populated at most once,
  as recorded by the append-only ledger `@@loaded_pathes`.

  The ledger's mutex is not modelled: the check-and-append is one step of
  a sequential state transition.
 */
module SassC {
  import opened Strings
  import opened Paths

  /** The filesystem together with the ledger of populated directories. */
  datatype Engine = Engine(fs: FileSys, ledger: seq<Path>)

  predicate NoDuplicates(s: seq<Path>) {
    forall i, j :: 0 <= i < j < |s| ==> s[i] != s[j]
  }

  /** `load_files(path, m_path)`: create `m_path`, copy the contents of
      `path` into it when `path` exists, and record `m_path`. */
  function LoadFiles(st: Engine, path: Path, mPath: Path): (st': Engine)
    ensures st'.ledger == st.ledger + [mPath]
    ensures st.fs.paths <= st'.fs.paths
    ensures mPath in st'.fs.paths
    ensures path in st.fs.paths ==>
              forall p :: p in st.fs.paths && Below(p, path) ==> Join(mPath, Rel(p, path)) in st'.fs.paths
    ensures path !in st.fs.paths ==> st'.fs.paths == st.fs.paths + {mPath}
    // and nothing but the copied tree is added
    ensures path in st.fs.paths ==> st'.fs.paths == st.fs.paths + {mPath} + TreeCopy(st.fs, path, mPath)
  {
    var copied := if path in st.fs.paths then TreeCopy(st.fs, path, mPath) else {};
    Engine(FileSys(st.fs.paths + {mPath} + copied), st.ledger + [mPath])
  }

  /** The include path SassC is given instead of `path`: the memfs prefix
      swapped for the cache directory, anything else unchanged. */
  function Rewrite(path: Path, prefix: Path, cache: Path): (m: Path)
    ensures !StartsWith(path, prefix) ==> m == path
    ensures StartsWith(path, prefix) ==>
              StartsWith(m, cache) && m[|cache|..] == path[|prefix|..] && |m| == |path| - |prefix| + |cache|
  {
    if StartsWith(path, prefix) then cache + path[|prefix|..] else path
  }

  /** The rewrite loses nothing: putting the prefix back on a rewritten
      memfs path gives the original path. */
  lemma RewriteReversible(path: Path, prefix: Path, cache: Path)
    requires StartsWith(path, prefix)
    ensures prefix + Rewrite(path, prefix, cache)[|cache|..] == path
  {
    assert path == path[..|prefix|] + path[|prefix|..];
  }

  /** The ledger side of `load_path(path, new_paths)`: a memfs path's
      cache directory is populated and recorded unless already recorded. */
  function Populate(st: Engine, path: Path, prefix: Path, cache: Path): (st': Engine)
    // a path outside the memfs touches neither the ledger nor the filesystem
    ensures !StartsWith(path, prefix) ==> st' == st
    // a memfs path is recorded, and populated only if it was not recorded yet
    ensures StartsWith(path, prefix) ==> Rewrite(path, prefix, cache) in st'.ledger
    ensures Rewrite(path, prefix, cache) in st.ledger ==> st' == st
    ensures StartsWith(path, prefix) && Rewrite(path, prefix, cache) !in st.ledger ==>
              st' == LoadFiles(st, path, Rewrite(path, prefix, cache))
    ensures |st.ledger| <= |st'.ledger| <= |st.ledger| + 1 && st'.ledger[..|st.ledger|] == st.ledger
    ensures |st'.ledger| == |st.ledger| + 1 ==>
              StartsWith(path, prefix) && st'.ledger[|st.ledger|] == Rewrite(path, prefix, cache)
              && Rewrite(path, prefix, cache) !in st.ledger
    ensures st.fs.paths <= st'.fs.paths
  {
    if StartsWith(path, prefix) then
      var mPath := cache + path[|prefix|..];
      var st' := if mPath in st.ledger then st else LoadFiles(st, path, mPath);
      assert st'.ledger[..|st.ledger|] == st.ledger;
      st'
    else
      st
  }

  /** `load_path(path, new_paths)`: one entry is appended, the rewritten
      path. */
  function LoadPath(st: Engine, path: Path, prefix: Path, cache: Path, newPaths: seq<Path>): (r: (Engine, seq<Path>))
    ensures r.0 == Populate(st, path, prefix, cache)
    ensures r.1 == newPaths + [Rewrite(path, prefix, cache)]
  {
    if StartsWith(path, prefix) then
      var mPath := cache + path[|prefix|..];
      (Populate(st, path, prefix, cache), newPaths + [mPath])
    else
      (st, newPaths + [path])
  }

  /** Populating a directory twice is impossible: a second `load_path` of
      the same memfs path changes nothing. */
  lemma LoadPathOnce(st: Engine, path: Path, prefix: Path, cache: Path, newPaths: seq<Path>)
    requires StartsWith(path, prefix)
    ensures var r1 := LoadPath(st, path, prefix, cache, newPaths);
            var r2 := LoadPath(r1.0, path, prefix, cache, newPaths);
            r2.0 == r1.0
  {
  }

  /** The include paths `load_paths` works through: the engine's own
      `:load_paths` option (or none), then the global `SassC.load_paths`. */
  function AllPaths(options: Option<seq<Path>>, global: seq<Path>): (paths: seq<Path>)
    ensures options.None? ==> paths == global
    ensures options.Some? ==> |paths| == |options.value| + |global|
    ensures options.Some? ==> paths[..|options.value|] == options.value
    ensures options.Some? ==> paths[|options.value|..] == global
  {
    options.GetOr([]) + global
  }

  function RewriteAll(paths: seq<Path>, prefix: Path, cache: Path): (ms: seq<Path>)
    ensures |ms| == |paths|
    ensures forall i :: 0 <= i < |paths| ==> ms[i] == Rewrite(paths[i], prefix, cache)
  {
    seq(|paths|, i requires 0 <= i < |paths| => Rewrite(paths[i], prefix, cache))
  }

  /** The engine after `load_path` has been applied to each of `paths` in
      turn. */
  function LoadAll(st: Engine, paths: seq<Path>, prefix: Path, cache: Path): (st': Engine)
    // each `load_path` records at most one new entry
    ensures |st.ledger| <= |st'.ledger| <= |st.ledger| + |paths|
    decreases |paths|
  {
    if |paths| == 0 then st
    else Populate(LoadAll(st, paths[..|paths| - 1], prefix, cache), paths[|paths| - 1], prefix, cache)
  }

  /** A memfs path among `paths`, by its rewritten form. */
  predicate RecordedFrom(m: Path, paths: seq<Path>, prefix: Path, cache: Path) {
    exists k :: 0 <= k < |paths| && StartsWith(paths[k], prefix) && m == Rewrite(paths[k], prefix, cache)
  }

  /** The ledger only grows, and so does the filesystem. */
  lemma {:induction false} LoadAllGrows(st: Engine, paths: seq<Path>, prefix: Path, cache: Path)
    ensures var st' := LoadAll(st, paths, prefix, cache);
            |st.ledger| <= |st'.ledger| && st'.ledger[..|st.ledger|] == st.ledger && st.fs.paths <= st'.fs.paths
    decreases |paths|
  {
    if |paths| > 0 {
      var mid := LoadAll(st, paths[..|paths| - 1], prefix, cache);
      LoadAllGrows(st, paths[..|paths| - 1], prefix, cache);
      var st' := LoadAll(st, paths, prefix, cache);
      assert st'.ledger[..|mid.ledger|] == mid.ledger;
      assert st'.ledger[..|st.ledger|] == mid.ledger[..|st.ledger|];
    }
  }

  /** Every memfs path handed to `load_path` ends up in the ledger. */
  lemma {:induction false} LoadAllRecords(st: Engine, paths: seq<Path>, prefix: Path, cache: Path)
    ensures forall k :: 0 <= k < |paths| && StartsWith(paths[k], prefix) ==>
              Rewrite(paths[k], prefix, cache) in LoadAll(st, paths, prefix, cache).ledger
    decreases |paths|
  {
    if |paths| > 0 {
      var init := paths[..|paths| - 1];
      var mid := LoadAll(st, init, prefix, cache);
      var st' := LoadAll(st, paths, prefix, cache);
      LoadAllRecords(st, init, prefix, cache);
      assert st'.ledger[..|mid.ledger|] == mid.ledger;
      forall k | 0 <= k < |paths| && StartsWith(paths[k], prefix)
        ensures Rewrite(paths[k], prefix, cache) in st'.ledger
      {
        if k < |paths| - 1 {
          assert paths[k] == init[k];
          var m := Rewrite(paths[k], prefix, cache);
          var j :| 0 <= j < |mid.ledger| && mid.ledger[j] == m;
          assert st'.ledger[j] == m;
        }
      }
    }
  }

  /** Whatever the ledger gains is new to it, comes from a memfs path among
      `paths`, and is recorded once: no directory is populated twice. */
  lemma {:induction false} LoadAllFresh(st: Engine, paths: seq<Path>, prefix: Path, cache: Path)
    ensures var st' := LoadAll(st, paths, prefix, cache);
            && (NoDuplicates(st.ledger) ==> NoDuplicates(st'.ledger))
            && forall j :: |st.ledger| <= j < |st'.ledger| ==>
                 st'.ledger[j] !in st.ledger && RecordedFrom(st'.ledger[j], paths, prefix, cache)
    decreases |paths|
  {
    if |paths| > 0 {
      var init := paths[..|paths| - 1];
      var mid := LoadAll(st, init, prefix, cache);
      var st' := LoadAll(st, paths, prefix, cache);
      LoadAllFresh(st, init, prefix, cache);
      LoadAllGrows(st, init, prefix, cache);
      assert st'.ledger[..|mid.ledger|] == mid.ledger;
      forall j | |st.ledger| <= j < |st'.ledger|
        ensures st'.ledger[j] !in st.ledger && RecordedFrom(st'.ledger[j], paths, prefix, cache)
      {
        if j < |mid.ledger| {
          assert st'.ledger[j] == mid.ledger[j];
          var k :| 0 <= k < |init| && StartsWith(init[k], prefix) && mid.ledger[j] == Rewrite(init[k], prefix, cache);
          assert paths[k] == init[k];
        } else {
          assert st'.ledger[j] !in mid.ledger;
          assert forall x :: x in st.ledger ==> x in mid.ledger by {
            assert mid.ledger[..|st.ledger|] == st.ledger;
          }
          assert StartsWith(paths[|paths| - 1], prefix);
        }
      }
    }
  }

  /** When every memfs path among `paths` is already in the ledger, applying
      `load_path` to all of them changes nothing. */
  lemma {:induction false} LoadAllSettled(st: Engine, paths: seq<Path>, prefix: Path, cache: Path)
    requires forall k :: 0 <= k < |paths| && StartsWith(paths[k], prefix) ==> Rewrite(paths[k], prefix, cache) in st.ledger
    ensures LoadAll(st, paths, prefix, cache) == st
    decreases |paths|
  {
    if |paths| > 0 {
      LoadAllSettled(st, paths[..|paths| - 1], prefix, cache);
    }
  }

  /** One more include path: one more `load_path` step and one more
      rewritten entry. */
  lemma LoadAllStep(st: Engine, paths: seq<Path>, i: nat, prefix: Path, cache: Path)
    requires i < |paths|
    ensures LoadAll(st, paths[..i + 1], prefix, cache) == Populate(LoadAll(st, paths[..i], prefix, cache), paths[i], prefix, cache)
    ensures RewriteAll(paths[..i + 1], prefix, cache) == RewriteAll(paths[..i], prefix, cache) + [Rewrite(paths[i], prefix, cache)]
  {
    assert paths[..i + 1][..i] == paths[..i];
  }

  /** The loop of `load_paths`: `load_path` on each include path in turn,
      collecting the rewritten entries. */
  method LoadEach(st: Engine, paths: seq<Path>, prefix: Path, cache: Path)
    returns (st': Engine, newPaths: seq<Path>)
    ensures newPaths == RewriteAll(paths, prefix, cache)
    ensures st' == LoadAll(st, paths, prefix, cache)
  {
    newPaths := [];
    st' := st;
    var i := 0;
    while i < |paths|
      invariant 0 <= i <= |paths|
      invariant newPaths == RewriteAll(paths[..i], prefix, cache)
      invariant st' == LoadAll(st, paths[..i], prefix, cache)
    {
      var r := LoadPath(st', paths[i], prefix, cache, newPaths);
      LoadAllStep(st, paths, i, prefix, cache);
      st', newPaths := r.0, r.1;
      i := i + 1;
    }
    assert paths[..i] == paths;
  }

  /** `load_paths`: rewrite every include path, populate each new cache
      directory once, and join the results with the path separator. What
      the ledger gains is stated by `LoadAllGrows`, `LoadAllRecords`,
      `LoadAllFresh` and `LoadAllSettled` about `LoadAll`. */
  method LoadPaths(st: Engine, options: Option<seq<Path>>, global: seq<Path>,
                   prefix: Path, cache: Path, sep: char)
    returns (st': Engine, joined: Option<string>)
    // nil when there is nothing to join
    ensures joined.None? <==> |AllPaths(options, global)| == 0
    ensures joined.Some? ==> joined.value == JoinWith(RewriteAll(AllPaths(options, global), prefix, cache), sep)
    // one entry per include path, in order
    ensures joined.Some? && (forall m :: m in RewriteAll(AllPaths(options, global), prefix, cache) ==> sep !in m) ==>
              Split(joined.value, sep) == RewriteAll(AllPaths(options, global), prefix, cache)
    // `load_path` applied to the include paths one after the other
    ensures st' == LoadAll(st, AllPaths(options, global), prefix, cache)
    // the ledger only grows, and never records a directory twice
    ensures |st.ledger| <= |st'.ledger| && st'.ledger[..|st.ledger|] == st.ledger
    ensures NoDuplicates(st.ledger) ==> NoDuplicates(st'.ledger)
  {
    var paths := AllPaths(options, global);
    var newPaths;
    st', newPaths := LoadEach(st, paths, prefix, cache);
    LoadAllGrows(st, paths, prefix, cache);
    LoadAllFresh(st, paths, prefix, cache);
    if |newPaths| == 0 {
      joined := None;
    } else {
      joined := Some(JoinWith(newPaths, sep));
      if forall m :: m in newPaths ==> sep !in m {
        SplitJoinWith(newPaths, sep);
      }
    }
  }
}

=== FILE: strings.dfy ===
/**
  String helpers shared by the runtime model: prefix, suffix and substring
  tests (Ruby's `start_with?`, `end_with?` and an unanchored regular
  expression literal), ASCII `downcase`, the quote helpers used on path
  arguments, and `Array#join` with a one-character separator together with
  its inverse.
 */
module Strings {

  datatype Option<+T> = None | Some(value: T) {
    function GetOr(default: T): T {
      match this
      case Some(v) => v
      case None => default
    }
  }

  predicate StartsWith(s: string, prefix: string) {
    |prefix| <= |s| && s[..|prefix|] == prefix
  }

  predicate EndsWith(s: string, suffix: string) {
    |suffix| <= |s| && s[|s| - |suffix|..] == suffix
  }

  /** `sub` occurs in `s` starting at index `k`. */
  predicate OccursAt(s: string, sub: string, k: int) {
    0 <= k && k + |sub| <= |s| && s[k..k + |sub|] == sub
  }

  /** `sub[j..]` matches `s` from index `k + j` on, character by character
      (and all of `sub` fits in `s` from `k`). */
  predicate MatchesFrom(s: string, sub: string, k: nat, j: nat)
    decreases |sub| - j
  {
    k + |sub| <= |s| && (j >= |sub| || (s[k + j] == sub[j] && MatchesFrom(s, sub, k, j + 1)))
  }

  /** `sub` occurs in `s` at some index `k` or later. */
  predicate ContainsFrom(s: string, sub: string, k: nat)
    decreases |s| - k
  {
    k + |sub| <= |s| && (MatchesFrom(s, sub, k, 0) || ContainsFrom(s, sub, k + 1))
  }

  /** An unanchored match of the literal `sub` anywhere in `s` (`s =~ /sub/`). */
  predicate Contains(s: string, sub: string) {
    ContainsFrom(s, sub, 0)
  }

  lemma {:induction false} MatchesFromOccurs(s: string, sub: string, k: nat, j: nat)
    requires j <= |sub|
    ensures MatchesFrom(s, sub, k, j) <==> k + |sub| <= |s| && s[k + j..k + |sub|] == sub[j..]
    decreases |sub| - j
  {
    if j < |sub| && k + |sub| <= |s| {
      MatchesFromOccurs(s, sub, k, j + 1);
      if s[k + j..k + |sub|] == sub[j..] {
        assert s[k + j] == s[k + j..k + |sub|][0];
      }
      if s[k + j] == sub[j] && s[k + j + 1..k + |sub|] == sub[j + 1..] {
        assert s[k + j..k + |sub|] == [s[k + j]] + s[k + j + 1..k + |sub|];
        assert sub[j..] == [sub[j]] + sub[j + 1..];
      }
    }
  }

  lemma {:induction false} ContainsFromOccurs(s: string, sub: string, k: nat)
    ensures ContainsFrom(s, sub, k) <==> exists i :: k <= i && OccursAt(s, sub, i)
    decreases |s| - k
  {
    MatchesFromOccurs(s, sub, k, 0);
    assert sub[0..] == sub;
    if k + |sub| <= |s| {
      ContainsFromOccurs(s, sub, k + 1);
      if MatchesFrom(s, sub, k, 0) {
        assert OccursAt(s, sub, k);
      }
      if exists i :: k <= i && OccursAt(s, sub, i) {
        var i :| k <= i && OccursAt(s, sub, i);
        if i > k {
          assert k + 1 <= i;
        }
      }
    }
  }

  /** `Contains` finds exactly the occurrences of `sub` in `s`. */
  lemma ContainsOccurs(s: string, sub: string)
    ensures Contains(s, sub) <==> exists k :: OccursAt(s, sub, k)
  {
    ContainsFromOccurs(s, sub, 0);
  }

  /** Every string contains itself. */
  lemma ContainsSelf(s: string)
    ensures Contains(s, s)
  {
    MatchesFromOccurs(s, s, 0, 0);
    assert s[0..|s|] == s[0..];
  }

  /* ---------------------------------------------------------------------- */
  /* ASCII case folding, as `String#downcase` does on ASCII text             */
  /* ---------------------------------------------------------------------- */

  function LowerChar(c: char): char {
    if 'A' <= c <= 'Z' then (c as int + 32) as char else c
  }

  predicate IsLower(s: string) {
    forall i :: 0 <= i < |s| ==> LowerChar(s[i]) == s[i]
  }

  function Lower(s: string): (r: string)
    ensures |r| == |s|
    ensures IsLower(r)
    ensures forall i :: 0 <= i < |s| ==> r[i] == LowerChar(s[i])
  {
    seq(|s|, i requires 0 <= i < |s| => LowerChar(s[i]))
  }

  /** Folding a string that is already lower-case changes nothing. */
  lemma LowerOfLower(s: string)
    requires IsLower(s)
    ensures Lower(s) == s
  {
  }

  /* ---------------------------------------------------------------------- */
  /* Quote helpers (`String#quoted?`, `#quote`, `#unquote`)                   */
  /* ---------------------------------------------------------------------- */

  const DoubleQuote: char := '"'

  /** A string is quoted when it has a double quote at each end. */
  function IsQuoted(s: string): (quoted: bool)
    ensures quoted <==> 2 <= |s| && s == [DoubleQuote] + s[1..|s| - 1] + [DoubleQuote]
  {
    2 <= |s| && s[0] == DoubleQuote && s[|s| - 1] == DoubleQuote
  }

  /** Wraps `s` in one double quote at each end; undone by `Unquote`. */
  function Quote(s: string): (r: string)
    ensures IsQuoted(r)
    ensures |r| == |s| + 2
    ensures r[1..|r| - 1] == s
  {
    [DoubleQuote] + s + [DoubleQuote]
  }

  /** Strips one double quote from each end of a quoted string. */
  function Unquote(s: string): (r: string)
    requires IsQuoted(s)
    ensures |r| == |s| - 2
    ensures Quote(r) == s
  {
    s[1..|s| - 1]
  }

  lemma UnquoteQuote(s: string)
    ensures Unquote(Quote(s)) == s
  {
  }

  /** The text inside the quotes when `s` is quoted, `s` itself otherwise. */
  function Unquoted(s: string): string {
    if IsQuoted(s) then Unquote(s) else s
  }

  /* ---------------------------------------------------------------------- */
  /* Joining with a separator, and the split that undoes it                  */
  /* ---------------------------------------------------------------------- */

  /** `parts.join(sep)` for a one-character separator. */
  function JoinWith(parts: seq<string>, sep: char): (r: string)
    ensures |parts| == 0 ==> r == ""
    ensures |parts| > 0 ==> StartsWith(r, parts[0]) && EndsWith(r, parts[|parts| - 1])
    ensures |parts| > 1 ==> sep in r
    decreases |parts|
  {
    if |parts| == 0 then ""
    else if |parts| == 1 then parts[0]
    else parts[0] + [sep] + JoinWith(parts[1..], sep)
  }

  /** Splits `s` at every occurrence of `sep`, keeping empty fields. */
  function Split(s: string, sep: char): (parts: seq<string>)
    ensures |parts| >= 1
    decreases |s|
  {
    if |s| == 0 then [""]
    else if s[0] == sep then [""] + Split(s[1..], sep)
    else
      var rest := Split(s[1..], sep);
      [[s[0]] + rest[0]] + rest[1..]
  }

  lemma {:induction false} SplitWithoutSeparator(s: string, sep: char)
    requires sep !in s
    ensures Split(s, sep) == [s]
    decreases |s|
  {
    if |s| > 0 {
      SplitWithoutSeparator(s[1..], sep);
      assert [s[0]] + s[1..] == s;
    }
  }

  lemma {:induction false} SplitAtFirstSeparator(a: string, sep: char, b: string)
    requires sep !in a
    ensures Split(a + [sep] + b, sep) == [a] + Split(b, sep)
    decreases |a|
  {
    var s := a + [sep] + b;
    if |a| == 0 {
      assert s[1..] == b;
    } else {
      assert s[0] == a[0];
      assert s[1..] == a[1..] + [sep] + b;
      SplitAtFirstSeparator(a[1..], sep, b);
      assert [a[0]] + a[1..] == a;
    }
  }

  /** Joining fields that do not contain the separator and splitting the
      result gives the fields back: one entry per field, in order. */
  lemma {:induction false} SplitJoinWith(parts: seq<string>, sep: char)
    requires |parts| >= 1
    requires forall i :: 0 <= i < |parts| ==> sep !in parts[i]
    ensures Split(JoinWith(parts, sep), sep) == parts
    decreases |parts|
  {
    if |parts| == 1 {
      SplitWithoutSeparator(parts[0], sep);
    } else {
      SplitJoinWith(parts[1..], sep);
      SplitAtFirstSeparator(parts[0], sep, JoinWith(parts[1..], sep));
      assert [parts[0]] + parts[1..] == parts;
    }
  }
}
